=== FILE: README.md ===
# campusjob in Dafny

campusjob is a job-review board for students. A NestJS backend registers members, issues JWT
access tokens and stores reviews. Two React frontends sit on top of it: a mock-data one
(`src/`) with a review feed, search, likes, bookmarks and a profile page, and an API-backed one
(`frontend/`) whose review form posts to the backend.

The project models the logic of both tiers as pure functions over immutable data and proves what
each operation promises:

- **Members** (`members.dfy`): the member table as a map from generated ids, with unique emails,
  and `MembersService`'s create, find-by-email, find, rename and remove.
- **Auth** (`auth.dfy`, `crypto.dfy`): credential validation, login, bearer extraction, expiry,
  and resolving a token back to the stored member. bcrypt and the JWT signer are function values
  constrained by the one law the code relies on.
- **Reviews** (`reviews.dfy`): review creation for the calling member, and deletion by the owner
  only.
- **Api** (`api.dfy`): the controllers' handlers. Each one is guard first, then path-id
  conversion, then the service call, then result shaping.
- **Validation** (`validation.dfy`): the class-validator rules of the three DTOs, from the parsed
  JSON body to a typed DTO or the list of failing properties.
- **Frontend**:
  - the list editor shared by both review forms (`entry_list.dfy`) and the two forms
    (`tag_form.dfy`, `certificate_form.dfy`);
  - the home and reviews feeds (`feed.dfy`) and the review card (`review_card.dfy`);
  - the profile page (`profile.dfy`), the route table (`routes.dfy`) and the session state
    (`auth_context.dfy`).
- Shared vocabulary: `Option`/`Result` (`wrappers.dfy`), JavaScript values (`json.dfy`), string
  built-ins such as `trim`, `includes` and `toLowerCase` (`text.dfy`), and list algorithms with
  their specifications (`lists.dfy`).

Two cross-tier facts are proved:

- A review the API-backed form lets through passes the backend's DTO validation unchanged. The
  form is strictly stricter than the backend (`CertificateForm.SubmittedFormPassesBackend`,
  `CertificateForm.StricterThanBackend`).
- The frontend's `decodeToken` reads the member id from an `id` claim, but the backend signs the
  id as `sub`. A user decoded from a backend token therefore has an undefined id. The profile
  page's "my reviews" tab then lists only reviews whose author id is undefined too
  (`AuthContext.BackendTokenHasNoId`, `Profile.BackendUserOwnsOnlyAnonymousReviews`). The
  frontend's API client targets a different server that hands the token over in a response
  header, so this is recorded as a property rather than as a defect.

Collaborators that the code cannot see are parameters:

- the password hasher, the token signer and the clock (`Api.Env`);
- the `@IsEmail()` format check (`isEmail`);
- the base64/URI/JSON decoding inside `decodeToken` (`parse`);
- the response token given to `login`.

The model follows the code where a plain reading of the design might expect otherwise. A rename
to a name made only of white space replaces the stored name, because the service tests only that
the name is truthy (`Members.Update`). There are two registration routes. `POST api/join` has no
guard (`Api.Join`), and it is the one the frontends call. `POST api/members` sits behind the JWT
guard like every other members route (`Api.CreateMember`, `Api.GuardOnEveryRoute`). Apart from
the guard the two answer alike (`Api.JoinIsCreateMemberUnguarded`). `POST api/login` hands its
body straight to `AuthService.login` (`Auth.Login`).

Stores are immutable values threaded through the operations. Backend operations that search the
table by email are ghost functions.

## Model

| member | source | states |
|---|---|---|
| Members.FindOneByEmail | backend/campusjob-api/src/members/members.service.ts:39-41 | null exactly when no member has that exact email; otherwise a stored member with that email, sitting under its own id |
| Members.Create | backend/campusjob-api/src/members/members.service.ts:21-36 | Conflict with the duplicate-email message exactly when the email is taken. Otherwise the new row has the DTO's email and name, role USER, password `hash(plaintext, 10)` and a fresh id. It is added without touching other rows, the table stays valid, and exactly one row has the email. With a sound hasher the stored password is not the plaintext and verifies against it |
| Members.FindOne | backend/campusjob-api/src/members/members.service.ts:44-50 | NotFound exactly when no row has the id; otherwise the row with that id |
| Members.Update | backend/campusjob-api/src/members/members.service.ts:53-60 | NotFound for a missing id. Otherwise id, email, password and role are kept, the name is replaced only by a non-empty name, only that row changes, and the table stays valid |
| Members.Remove | backend/campusjob-api/src/members/members.service.ts:63-68 | NotFound exactly when no row has the id; otherwise exactly that row is gone, every other row is unchanged, and the table stays valid |
| Members.SanitizeDropsOnlyPassword | backend/campusjob-api/src/members/members.controller.ts:63-70 | two members sanitise to the same view exactly when they differ at most in the password: id, name, email and role are copied, the password never is |
| Auth.ValidateUser | backend/campusjob-api/src/auth/auth.service.ts:16-31 | a result exactly when some member has the email and the password verifies against its hash; the result is that member's password-free view |
| Auth.Login | backend/campusjob-api/src/auth/auth.service.ts:34-46 | Unauthorized with the fixed message exactly when validation fails; otherwise the token signed over `{email, role, sub: id}` of the matching member, issued now for one hour |
| Auth.LoginFailuresAlike | backend/campusjob-api/src/auth/auth.service.ts:35-40 | an unknown email and a wrong password produce the identical error |
| Auth.BearerToken | backend/campusjob-api/src/auth/jwt.strategy.ts:22-30 | a token exactly when the header is present and starts with "Bearer "; the header is then the prefix followed by the token |
| Auth.BearerRoundTrip | backend/campusjob-api/src/auth/jwt.strategy.ts:24-28 | prefixing any token with "Bearer " and extracting it returns the token |
| Auth.BearerIsCaseSensitive | backend/campusjob-api/src/auth/jwt.strategy.ts:23-30 | a lower-case "bearer", another scheme, or no header yields no token |
| Auth.Validate | backend/campusjob-api/src/auth/jwt.strategy.ts:37-44 | Unauthorized exactly when no stored member has the payload's email; otherwise that stored row, found by email and not by `sub` |
| Auth.Authenticate | backend/campusjob-api/src/auth/jwt.strategy.ts:21-44 | every refusal is the same Unauthorized. No bearer token, or the empty token of a bare "Bearer " header, means refusal. A non-empty token that verifies, has not expired and carries the email of a stored member is accepted. Success means exactly that, resolving to the stored member with the token's email |
| Auth.LoginTokenAuthenticates | backend/campusjob-api/src/auth/jwt.strategy.ts:32-44 | a login token sent as a bearer header resolves to the member who logged in before `iat + 3600` and is refused from then on |
| Auth.RemovedMemberRejected | backend/campusjob-api/src/auth/jwt.strategy.ts:39-42 | once the member is removed, a token carrying their email is refused |
| Crypto.Issue | backend/campusjob-api/src/auth/auth.module.ts:19 | the issued claims carry the payload and issue time, and are fresh exactly at times before issue time plus one hour |
| Reviews.Create | backend/campusjob-api/src/reviews/reviews.service.ts:19-28 | the insert fails (QueryFailed) exactly when the age is outside the `integer` column's range (review.entity.ts:25-26); otherwise the new row is owned by the calling member, copies every DTO field, has a fresh id, is added without touching other rows, and keeps the table valid |
| Reviews.Remove | backend/campusjob-api/src/reviews/reviews.service.ts:30-43 | NotFound exactly when the id is unknown. Forbidden exactly when it exists but the owner's email differs from the caller's. Success exactly when it exists and is owned; then only that row is gone |
| Reviews.MissingBeforeForbidden | backend/campusjob-api/src/reviews/reviews.service.ts:36-38 | for an unknown id every caller gets NotFound; the ownership check does not run first |
| Reviews.RemoveOnce | backend/campusjob-api/src/reviews/reviews.service.ts:36-42 | a successful removal keeps the table valid, and repeating it gives NotFound |
| Scenario.RegisterTwice | backend/campusjob-api/src/members/members.service.ts:21-36 | after a successful registration, registering the same email again is a Conflict, and exactly one member has that email |
| Scenario.AliceAndBob | backend/campusjob-api/src/reviews/reviews.service.ts:30-43 | two members register through `api/join` and log in; the review one of them posts cannot be deleted by the other (Forbidden), is deleted by its owner, and a second delete is NotFound |
| Api.ParseId | backend/campusjob-api/src/members/members.controller.ts:44 | `+id` gives a number exactly for a non-empty string of decimal digits |
| Api.QueryId | backend/campusjob-api/src/members/entities/member.entity.ts:10-11 | a path id reaches the query exactly when it is a decimal numeral whose value the `integer` id column can hold (at most 2147483647), and then it is that value |
| Api.ParseShowId | backend/campusjob-api/src/members/members.controller.ts:44 | converting an id's decimal numeral back gives the id |
| Api.GetMe | backend/campusjob-api/src/members/members.controller.ts:30-33 | succeeds exactly when the guard does, with the sanitised guard member, which is a stored row's view; every guard refusal is Unauthorized |
| Api.Join | backend/campusjob-api/src/auth/auth.controller.ts:20-30 | with no guard: Conflict exactly when the email is taken. Otherwise the answer has the DTO's email and name, role USER and a fresh id. The new table adds exactly that row, whose sanitised view is the answer and whose password is the hash, and stays valid |
| Api.CreateMember | backend/campusjob-api/src/members/members.controller.ts:35-40 | succeeds exactly when the guard passes and the email is free. A guard refusal is Unauthorized and a taken email Conflict. On success the view has the DTO's email and name, role USER and a fresh id. Only that row is added; it is the row the view sanitises, and its password is the hash of the DTO's |
| Api.JoinIsCreateMemberUnguarded | backend/campusjob-api/src/auth/auth.controller.ts:20-30 | for a caller the guard lets through, both registration routes give the same answer; for any other caller `api/members` refuses while `api/join` still registers a free email |
| Api.FindMember | backend/campusjob-api/src/members/members.controller.ts:42-46 | succeeds exactly when the guard passes and the path numeral names a stored member, whose sanitised view it returns. A guard refusal is Unauthorized, a path id the query cannot use is QueryFailed, and NotFound comes exactly when the guard passes and no member has the id. |
| Api.UpdateMember | backend/campusjob-api/src/members/members.controller.ts:48-55 | succeeds exactly when the guard passes and the path names a stored member. The view shows the new name (or the old one for an empty name) with the same id, email and role, and the stored row is the old one with only its name so replaced; no other row changes and the id sequence is kept. A guard refusal is Unauthorized, a path id the query cannot use is QueryFailed, and NotFound comes exactly when the guard passes and no member has the id. |
| Api.RemoveMember | backend/campusjob-api/src/members/members.controller.ts:57-61 | succeeds exactly when the guard passes and the path names a stored member; the table is then the old one minus exactly that row. A guard refusal is Unauthorized, a path id the query cannot use is QueryFailed, and NotFound comes exactly when the guard passes and no member has the id. |
| Api.CreateReview | backend/campusjob-api/src/reviews/reviews.controller.ts:24-31 | succeeds exactly when the guard passes and the age fits the `integer` column; a guard refusal is Unauthorized and an out-of-range age QueryFailed. The new review's owner is the member the token resolves to, not anything in the body. It copies every DTO field, has a fresh id, and is added without touching other rows |
| Api.DeleteReview | backend/campusjob-api/src/reviews/reviews.controller.ts:33-37 | Unauthorized when the guard refuses, and QueryFailed for a path id the query cannot use. Otherwise NotFound exactly when no review has the id, Forbidden exactly when its owner's email is not the caller's, and success exactly when it is. The table is then the old one minus exactly that review |
| Api.GuardOnEveryRoute | backend/campusjob-api/src/members/members.controller.ts:26 | without a bearer token every `api/members` route, its registration route included, answers Unauthorized |
| Api.ActsOnPathId | backend/campusjob-api/src/members/members.controller.ts:48-61 | update and delete give the same outcome for any two authenticated callers: only the path id matters |
| Api.AdminIsNotExempt | backend/campusjob-api/src/reviews/reviews.service.ts:38 | an authenticated ADMIN who does not own the review gets Forbidden |
| Validation.ValidateMember | backend/campusjob-api/src/members/dto/create-member.dto.ts:3-16 | accepted exactly when the email is a non-empty well-formed string, the password is a string of at least 4 characters, and the name is a non-empty string; the DTO holds those values; a refusal names at least one property, and names each of email, password and name exactly when that property breaks its rules |
| Validation.MemberRoundTrip | backend/campusjob-api/src/members/dto/create-member.dto.ts:3-16 | a typed registration encoded as JSON validates back to itself exactly when it meets the rules; no role can be carried |
| Validation.ValidateUpdate | backend/campusjob-api/src/members/dto/update-member.dto.ts:3-7 | accepted exactly when the name is a non-empty string, and the DTO holds it |
| Validation.ValidateReview | backend/campusjob-api/src/reviews/dto/create-review.dto.ts:3-20 | accepted exactly when company is a non-empty string, certificates an array of strings, age an integer, and seek period and tip strings; the DTO holds those values |
| Validation.ReviewRoundTrip | backend/campusjob-api/src/reviews/dto/create-review.dto.ts:3-20 | a typed review validates back to itself exactly when its company is non-empty: empty lists, zero or negative ages and empty strings pass, and no owner can be carried |
| EntryList.Add | frontend/src/pages/WriteReviewPage.tsx:32-40 | when the trimmed input is non-blank, new and under the limit: append it and clear the box; otherwise nothing changes. Lists stay duplicate-free, non-blank and trimmed, and within the limit |
| EntryList.Remove | frontend/src/pages/WriteReviewPage.tsx:42-47 | every copy of the entry goes, the others keep their counts and order, and the input box and list invariant are kept |
| EntryList.AddThenRemove | src/pages/WriteReviewPage.tsx:43-58 | adding an entry and removing it restores the list |
| CertificateForm.AddCertificate | frontend/src/pages/WriteReviewPage.tsx:32-40 | the certificate is appended trimmed, and the box cleared, exactly when the trimmed name is non-blank and not listed; otherwise the page is unchanged; the list invariant holds |
| CertificateForm.RemoveCertificate | frontend/src/pages/WriteReviewPage.tsx:42-47 | the certificate is gone, the rest keep their order and counts, and the other fields are unchanged |
| CertificateForm.NoCertificateCap | frontend/src/pages/WriteReviewPage.tsx:33 | whatever the list's length, a new non-blank certificate grows it by one |
| CertificateForm.Submit | frontend/src/pages/WriteReviewPage.tsx:54-58 | the request is built exactly when company, seek period and tip are non-blank after trimming and age is positive; otherwise the fixed error |
| CertificateForm.SubmittedFormPassesBackend | frontend/src/pages/WriteReviewPage.tsx:54-61 | every request the page sends passes the backend's review validation unchanged |
| CertificateForm.StricterThanBackend | frontend/src/pages/WriteReviewPage.tsx:54 | age 0 with a blank seek period and an empty tip is refused by the page yet accepted by the backend |
| TagForm.AddTag | src/pages/WriteReviewPage.tsx:43-51 | the trimmed tag is appended, and the box cleared, when non-blank, new and fewer than 5 tags exist; otherwise nothing changes; at most 5 unique trimmed tags stay so |
| TagForm.RemoveTag | src/pages/WriteReviewPage.tsx:53-58 | the tag is gone, the rest keep their order, and the other fields and the tag invariant are kept |
| TagForm.AddButtonMatchesRule | src/pages/WriteReviewPage.tsx:252 | a disabled button is one whose click would change nothing; an enabled button's click is refused exactly for an already-listed tag |
| TagForm.Submit | src/pages/WriteReviewPage.tsx:65-75 | the required error exactly when title, company or content is blank after trimming; else the too-short error exactly when the untrimmed content has under 50 characters; else posted |
| TagForm.PaddingCountsTowardsLength | src/pages/WriteReviewPage.tsx:71 | one letter followed by 49 spaces passes, because length is measured before trimming |
| Feed.ToggleLike | src/pages/HomePage.tsx:15-27 | same length and order; other ids unchanged; a matching review flips `isLiked`, keeps `likes - [isLiked]`, and changes no other field |
| Feed.ToggleBookmark | src/pages/HomePage.tsx:29-41 | the same for `isBookmarked` and `bookmarks` |
| Feed.ToggleLikeTwice | src/pages/HomePage.tsx:21-22 | liking twice restores the list |
| Feed.ToggleBookmarkTwice | src/pages/HomePage.tsx:35-36 | bookmarking twice restores the list |
| Feed.TogglesCommute | src/pages/ReviewsPage.tsx:15-41 | a like and a bookmark toggle give the same list in either order |
| Feed.EmptyTermMatches | src/pages/HomePage.tsx:44-48 | the empty search term matches every review on both pages |
| Feed.HomeKept | src/pages/HomePage.tsx:43-54 | each review is kept, as often as it occurs, exactly when the search matches title, company or position and, on the bookmarked tab, it is bookmarked |
| Feed.HomeFeed | src/pages/HomePage.tsx:43-60 | a permutation of the kept reviews, with likes non-increasing on the popular tab and creation time non-increasing otherwise |
| Feed.EmptySearchShowsAll | src/pages/HomePage.tsx:44-54 | with no term, the latest and popular tabs show every review |
| Feed.ReviewsFiltered | src/pages/ReviewsPage.tsx:43-55 | a subsequence of the reviews, keeping every copy of exactly those matching the search (content included), the company filter by equality and the position filter by containment, each filter ignored when empty |
| Feed.ReviewsFeed | src/pages/ReviewsPage.tsx:43-68 | a permutation of the filtered reviews, likes non-increasing for popular and creation time non-increasing for latest |
| Feed.Companies | src/pages/ReviewsPage.tsx:70 | duplicate-free, and holds exactly the companies occurring in the reviews |
| ReviewCard.VisibleTags | src/components/ReviewCard.tsx:59 | the first `min(3, |tags|)` tags, in order |
| ReviewCard.OverflowBadge | src/components/ReviewCard.tsx:72-74 | present exactly when there are more than 3 tags; shown tags plus the badge number equal the tag count |
| Profile.UserReviews | src/pages/ProfilePage.tsx:18 | a subsequence holding every copy of exactly the reviews whose author id strictly equals the user's id, `undefined` when signed out |
| Profile.LikedReviews | src/pages/ProfilePage.tsx:19 | a subsequence holding every copy of exactly the liked reviews |
| Profile.BookmarkedReviews | src/pages/ProfilePage.tsx:20 | a subsequence holding every copy of exactly the bookmarked reviews |
| Profile.ReduceIsTotal | src/pages/ProfilePage.tsx:24 | the left fold of `total + likes` from a start value adds the list's total likes to it |
| Profile.ProfileStats | src/pages/ProfilePage.tsx:22-26 | the count of the user's reviews, the sum of their likes, and the count of bookmarked reviews |
| Profile.CurrentReviews | src/pages/ProfilePage.tsx:33-42 | a subsequence holding every copy of exactly the reviews the active tab selects: liked, bookmarked, or the user's own |
| Profile.BackendUserOwnsOnlyAnonymousReviews | src/pages/ProfilePage.tsx:18 | signed in with a backend token, "my reviews" lists exactly the reviews whose author id is undefined |
| Profile.InitialState | src/pages/ProfilePage.tsx:9-15 | not editing, on "my reviews", with a blank form, since the decoded user has no name, university or major |
| Profile.StartEditing | src/pages/ProfilePage.tsx:114 | enters edit mode keeping the form and the tab |
| Profile.Save | src/pages/ProfilePage.tsx:28-31 | leaves edit mode keeping the form and the tab: the edits are persisted nowhere, so saving is what the cancel button does |
| Routes.Guard | src/App.tsx:13-16 | renders its page exactly when authenticated, otherwise redirects to "/" |
| Routes.Route | src/App.tsx:25-67 | a protected page renders only when authenticated and the login and register pages only when not; every redirect goes to "/" or, when authenticated, to "/home"; a rendered page's declared path is the requested one, its static segments matched ignoring ASCII case and the `:id` segment exactly |
| Routes.RouteTable | src/App.tsx:25-63 | each page's own path ("/", "/register", "/home", "/reviews", "/reviews/:id", "/write", "/profile") renders that page behind the guard when protected; "/" and "/register" render their page when signed out and redirect to "/home" when signed in |
| Routes.RoutingSettles | src/App.tsx:26-66 | every path renders a page within two redirects; a redirected visitor lands on the home page when authenticated and the login page otherwise |
| Routes.SignedOutSeesOnlyPublicPages | src/App.tsx:13-66 | a visitor who is not signed in ends on the login or register page, whatever the path |
| Routes.Show | src/App.tsx:18-70 | the navigation bar is shown exactly when authenticated, and the page reached is protected exactly when authenticated |
| AuthContext.DecodeToken | src/contexts/AuthContext.tsx:15-29 | null exactly when decoding fails or the payload is null; otherwise only the payload's `id` and `email` properties, undefined when absent |
| AuthContext.BackendTokenHasNoId | src/contexts/AuthContext.tsx:24 | the payload the backend signs decodes to an undefined id and the member's email |
| AuthContext.Effect | src/contexts/AuthContext.tsx:35-46 | the token is kept and storage synchronised with it. With a non-empty token the user becomes the decoded one, or is kept when decoding fails; without one the user is cleared |
| AuthContext.EffectIdempotent | src/contexts/AuthContext.tsx:35-46 | running the effect twice equals running it once |
| AuthContext.Mount | src/contexts/AuthContext.tsx:31-46 | authenticated exactly when storage held a non-empty token, then with that token and its decoded user; otherwise no user |
| AuthContext.Login | src/contexts/AuthContext.tsx:48-56 | fails with the missing-token error exactly when the response token is absent or empty, leaving the session unchanged. Otherwise the session is authenticated with that token. The user is re-decoded when the token changed and decodes, and kept otherwise; storage stays synchronised |
| AuthContext.Logout | src/contexts/AuthContext.tsx:62-66 | no token, no user and nothing stored, whatever the session was |
| AuthContext.LogoutSurvivesReload | src/contexts/AuthContext.tsx:62-66 | a reload after logout is not authenticated |
| AuthContext.LoginSurvivesReload | src/contexts/AuthContext.tsx:48-56 | a reload after a successful login restores the same token |

## Left out

- `main.ts` is not part of this model. Whether a global validation pipe runs is therefore not
  modelled. Handlers take typed DTOs, and `Validation` states what such a pipe would accept.
- The model assumes a whitelisting validation pipe, which strips every property a DTO does not
  declare. `main.ts` is not part of this model, so nothing confirms that such a pipe runs. Without
  it, `repository.create({...dto})` followed by `save()` takes extra body properties along:
  - A body `role` would set the new member's role.
  - A body `id` would make `save()` update the row that already has that id. Through the
    unguarded `api/join` (members.service.ts:29-35), this rewrites an existing member's email,
    name and password. Through `api/reviews` (reviews.service.ts:23-27), it rewrites any review
    and hands it to the caller, which gets round the ownership check of `Reviews.Remove`.

  The claims "a fresh id" and "added without touching other rows" made by Members.Create,
  Api.Join, Api.CreateMember, Reviews.Create and Api.CreateReview hold only under that
  assumption.
- TypeORM, NestJS dependency injection, HTTP status codes and the database's own
  unique-constraint error are not modelled. Database refusals other than an `integer` value out
  of range are not modelled either. A PostgreSQL text column, for example, refuses U+0000. So a
  company, certificate, seek period, tip, email or name holding it passes validation and then
  fails the insert or save. Under Members.Create, Api.Join, Api.CreateMember, Members.Update,
  Api.UpdateMember, Reviews.Create and Api.CreateReview, the model answers success for such
  strings. The race between the duplicate-email check and the
  insert is a concurrency matter, also left out.
- Api.ParseId: JavaScript's StringToNumber grammar is not modelled beyond decimal numerals. In
  the source, signs, surrounding white space, fractions with a zero fraction, hexadecimal and
  exponent forms (`+"1.0"`, `+" 1 "`, `+"0x1"`, `+"1e0"`) convert to a number and can name a
  row. Others convert to a number that names no row, such as `+"-1"` (-1) and `+"-0"` and `+" "`
  (both 0): ids are positive, so the source answers NotFound. In the model all of these
  give `QueryFailed`. A decimal numeral is read exactly. `+id` rounds above
  2^53, but `Api.QueryId` already refuses every value above the `integer` column's 2147483647,
  so that rounding never reaches a query.
- Api.AdminIsNotExempt: stated for review ids of at most 2147483647, the only ids the `integer`
  column can store.
- Deleting a member who owns reviews depends on foreign-key behaviour outside the code, and is
  not modelled.
- bcrypt and JWT internals are abstract. `Crypto.SoundHasher` and `Crypto.SoundSigner` state the
  only laws used. `Fresh` compares whole seconds.
- The salary sort of the reviews page is left out. It relies on `parseInt` of free text, which
  can yield NaN, and a comparator returning NaN makes the order implementation-defined.
- Feed.HomeFeed: `createdAt` is taken as an already-parsed timestamp. `new Date(...)` parsing
  and locale formatting are left out.
- Feed.ReviewsFeed: stability of `Array.prototype.sort` is not stated. Only the permutation and
  the ordering are.
- Text.Lower: `toLowerCase` is modelled for ASCII letters only, and other characters are kept.
  The Korean text the pages handle has no case.
- Text.Trim uses the exact ECMAScript white-space and line-terminator set. Lengths count code
  points, not UTF-16 code units.
- CertificateForm.Submit: `parseInt` of a cleared age field gives NaN, which passes
  `age <= 0`. The model's age is always an integer, so that path is not represented.
- `@IsEmail()` is the parameter `isEmail`. Its format rules are not modelled.
- The profile page's like and bookmark buttons only log to the console, so no state change is
  modelled for them.
- The tag input's `maxLength={20}` (src/pages/WriteReviewPage.tsx:247) and the certificate
  input's `maxLength={50}` (frontend/src/pages/WriteReviewPage.tsx:178) are limits the browser
  enforces while typing. `TagForm.AddTag` and `CertificateForm.AddCertificate` take whatever text
  is in the box, so the model admits longer tags and certificate names.
- The frontend's network client, `register`, navigation after submit and all rendering are
  left out.

=== FILE: api.dfy ===
/** The HTTP handlers of `MembersController` and `ReviewsController`: each runs the JWT guard,
    converts the path id, delegates to its service and shapes the result. */
module Api {
  import opened Wrappers
  import opened Members
  import Reviews
  import Auth
  import Crypto

  /** The collaborators a request sees: the password hasher, the token signer and the clock. */
  datatype Env = Env(hasher: Crypto.Hasher, jwt: Crypto.TokenService, now: int)

  /** Both tables. */
  datatype Db = Db(members: MemberTable, reviews: Reviews.ReviewTable)

  ghost predicate ValidDb(db: Db) {
    Members.Valid(db.members) && Reviews.Valid(db.reviews)
  }

  predicate IsDigit(c: char) {
    '0' <= c <= '9'
  }

  function DigitValue(c: char): nat
    requires IsDigit(c)
  {
    c as int - '0' as int
  }

  /** The number a string of decimal digits denotes. */
  function DigitsValue(s: string): nat
    requires forall k :: 0 <= k < |s| ==> IsDigit(s[k])
  {
    if |s| == 0 then 0 else DigitsValue(s[..|s| - 1]) * 10 + DigitValue(s[|s| - 1])
  }

  /** `+id` on a path segment written as a decimal numeral; any other segment stands for NaN. */
  function ParseId(s: string): (r: Option<nat>)
    ensures r.Some? <==> |s| > 0 && forall k :: 0 <= k < |s| ==> IsDigit(s[k])
  {
    if |s| > 0 && forall k :: 0 <= k < |s| ==> IsDigit(s[k]) then Some(DigitsValue(s)) else None
  }

  /** The largest id the `integer` id column can hold. */
  const MaxId := MaxInteger

  /** The id a query can use: `+id` of a decimal numeral the id column can hold. Any other
      segment (NaN, or a number out of the column's range) makes the query fail. Every numeral
      above 2^53, where `+id` would round, is already out of range. */
  function QueryId(s: string): (r: Option<nat>)
    ensures r.Some? <==> ParseId(s).Some? && ParseId(s).value <= MaxId
    ensures r.Some? ==> r == ParseId(s)
  {
    match ParseId(s)
    case Some(n) => if n <= MaxId then Some(n) else None
    case None => None
  }

  /** The canonical decimal numeral of `n`, as links and clients write ids. */
  function ShowId(n: nat): (r: string)
    ensures |r| > 0 && forall k :: 0 <= k < |r| ==> IsDigit(r[k])
  {
    var d := ('0' as int + n % 10) as char;
    if n < 10 then [d] else ShowId(n / 10) + [d]
  }

  /** Reading back an id's numeral gives the id. */
  lemma {:induction false} ParseShowId(n: nat)
    ensures ParseId(ShowId(n)) == Some(n)
  {
    var s := ShowId(n);
    var d := ('0' as int + n % 10) as char;
    assert DigitValue(d) == n % 10;
    if n >= 10 {
      ParseShowId(n / 10);
      assert s == ShowId(n / 10) + [d];
      assert s[..|s| - 1] == ShowId(n / 10);
      assert DigitsValue(s) == DigitsValue(ShowId(n / 10)) * 10 + n % 10;
    } else {
      assert s == [d] && s[..0] == [];
      assert DigitsValue(s) == n % 10;
    }
  }

  /** `GET api/members/me`: the guard's member, sanitised. */
  ghost function GetMe(t: MemberTable, header: Option<string>, env: Env): (r: Result<MemberView, Failure>)
    requires Valid(t)
    ensures r.Success? <==> Auth.Authenticate(t, header, env.now, env.jwt).Success?
    ensures r.Failure? ==> r == Failure(Unauthorized(Auth.UnauthorizedMessage))
    ensures r.Success? ==> r.value == Sanitize(Auth.Authenticate(t, header, env.now, env.jwt).value)
    ensures r.Success? ==> exists id :: id in t.rows && Sanitize(t.rows[id]) == r.value
  {
    match Auth.Authenticate(t, header, env.now, env.jwt)
    case Failure(e) => Failure(e)
    case Success(user) => Success(Sanitize(user))
  }

  /** `POST api/join`: registration without the guard, answering with the sanitised member. */
  ghost function Join(t: MemberTable, env: Env, dto: CreateMemberDto)
    : (r: Result<(MemberTable, MemberView), Failure>)
    requires Valid(t)
    ensures r.Success? <==> !Members.HasEmail(t, dto.email)
    ensures r.Failure? ==> r.error == Conflict(Members.EmailTaken)
    ensures r.Success? ==>
      var (t', v) := r.value;
      && v.email == dto.email && v.name == dto.name && v.role == USER
      && v.id !in t.rows && v.id in t'.rows
      && t'.rows == t.rows[v.id := t'.rows[v.id]]
      && Sanitize(t'.rows[v.id]) == v
      && t'.rows[v.id].password == env.hasher.hash(dto.password, Crypto.SaltRounds)
      && Valid(t')
  {
    match Members.Create(t, dto, env.hasher)
    case Failure(e) => Failure(e)
    case Success((t', m)) => Success((t', Sanitize(m)))
  }

  /** `POST api/members`: registration behind the guard, answering with the sanitised member. */
  ghost function CreateMember(t: MemberTable, header: Option<string>, env: Env, dto: CreateMemberDto)
    : (r: Result<(MemberTable, MemberView), Failure>)
    requires Valid(t)
    ensures r.Success? <==>
      Auth.Authenticate(t, header, env.now, env.jwt).Success? && !Members.HasEmail(t, dto.email)
    ensures Auth.Authenticate(t, header, env.now, env.jwt).Failure? ==>
      r == Failure(Unauthorized(Auth.UnauthorizedMessage))
    ensures Auth.Authenticate(t, header, env.now, env.jwt).Success? && Members.HasEmail(t, dto.email) ==>
      r == Failure(Conflict(Members.EmailTaken))
    ensures r.Success? ==>
      && r.value.1.email == dto.email && r.value.1.name == dto.name && r.value.1.role == USER
      && r.value.1.id !in t.rows && r.value.1.id in r.value.0.rows
      && r.value.0.rows == t.rows[r.value.1.id := r.value.0.rows[r.value.1.id]]
      && Sanitize(r.value.0.rows[r.value.1.id]) == r.value.1
      && r.value.0.rows[r.value.1.id].password == env.hasher.hash(dto.password, Crypto.SaltRounds)
      && Valid(r.value.0)
  {
    match Auth.Authenticate(t, header, env.now, env.jwt)
    case Failure(e) => Failure(e)
    case Success(_) => Join(t, env, dto)
  }

  /** The two registration routes differ only in the guard: a caller the guard lets through gets
      the same answer from both. */
  lemma JoinIsCreateMemberUnguarded(t: MemberTable, header: Option<string>, env: Env,
                                    dto: CreateMemberDto)
    requires Valid(t)
    ensures Auth.Authenticate(t, header, env.now, env.jwt).Success? ==>
      CreateMember(t, header, env, dto) == Join(t, env, dto)
    ensures Auth.Authenticate(t, header, env.now, env.jwt).Failure? ==>
      CreateMember(t, header, env, dto).Failure? && Join(t, env, dto).Success? == !Members.HasEmail(t, dto.email)
  {
  }

  /** `GET api/members/:id`. */
  ghost function FindMember(t: MemberTable, header: Option<string>, env: Env, pathId: string)
    : (r: Result<MemberView, Failure>)
    requires Valid(t)
    ensures Auth.Authenticate(t, header, env.now, env.jwt).Failure? ==>
      r == Failure(Unauthorized(Auth.UnauthorizedMessage))
    ensures Auth.Authenticate(t, header, env.now, env.jwt).Success? && QueryId(pathId).None? ==>
      r == Failure(QueryFailed)
    ensures r == Failure(NotFound(MemberMissing)) <==>
      Auth.Authenticate(t, header, env.now, env.jwt).Success? && QueryId(pathId).Some?
      && QueryId(pathId).value !in t.rows
    ensures r.Success? <==>
      Auth.Authenticate(t, header, env.now, env.jwt).Success? && QueryId(pathId).Some?
      && QueryId(pathId).value in t.rows
    ensures r.Success? ==> r.value == Sanitize(t.rows[QueryId(pathId).value])
  {
    match Auth.Authenticate(t, header, env.now, env.jwt)
    case Failure(e) => Failure(e)
    case Success(_) =>
      match QueryId(pathId)
      case None => Failure(QueryFailed)
      case Some(id) =>
        match FindOne(t, id)
        case Failure(e) => Failure(e)
        case Success(m) => Success(Sanitize(m))
  }

  /** `PUT api/members/:id`: renames the member the path names, whoever the token identifies. */
  ghost function UpdateMember(t: MemberTable, header: Option<string>, env: Env, pathId: string,
                              dto: UpdateMemberDto)
    : (r: Result<(MemberTable, MemberView), Failure>)
    requires Valid(t)
    ensures Auth.Authenticate(t, header, env.now, env.jwt).Failure? ==>
      r == Failure(Unauthorized(Auth.UnauthorizedMessage))
    ensures Auth.Authenticate(t, header, env.now, env.jwt).Success? && QueryId(pathId).None? ==>
      r == Failure(QueryFailed)
    ensures r == Failure(NotFound(MemberMissing)) <==>
      Auth.Authenticate(t, header, env.now, env.jwt).Success? && QueryId(pathId).Some?
      && QueryId(pathId).value !in t.rows
    ensures r.Success? <==>
      Auth.Authenticate(t, header, env.now, env.jwt).Success? && QueryId(pathId).Some?
      && QueryId(pathId).value in t.rows
    ensures r.Success? ==>
      var id := QueryId(pathId).value;
      var before := t.rows[id];
      && r.value.1 == MemberView(id, if dto.name != "" then dto.name else before.name,
                                 before.email, before.role)
      && r.value.0.rows == t.rows[id := before.(name := r.value.1.name)]
      && r.value.0.nextId == t.nextId
      && Valid(r.value.0)
  {
    match Auth.Authenticate(t, header, env.now, env.jwt)
    case Failure(e) => Failure(e)
    case Success(_) =>
      match QueryId(pathId)
      case None => Failure(QueryFailed)
      case Some(id) =>
        match Members.Update(t, id, dto)
        case Failure(e) => Failure(e)
        case Success((t', m)) => Success((t', Sanitize(m)))
  }

  /** `DELETE api/members/:id`: deletes the member the path names, whoever the token identifies. */
  ghost function RemoveMember(t: MemberTable, header: Option<string>, env: Env, pathId: string)
    : (r: Result<MemberTable, Failure>)
    requires Valid(t)
    ensures Auth.Authenticate(t, header, env.now, env.jwt).Failure? ==>
      r == Failure(Unauthorized(Auth.UnauthorizedMessage))
    ensures Auth.Authenticate(t, header, env.now, env.jwt).Success? && QueryId(pathId).None? ==>
      r == Failure(QueryFailed)
    ensures r == Failure(NotFound(MemberMissing)) <==>
      Auth.Authenticate(t, header, env.now, env.jwt).Success? && QueryId(pathId).Some?
      && QueryId(pathId).value !in t.rows
    ensures r.Success? <==>
      Auth.Authenticate(t, header, env.now, env.jwt).Success? && QueryId(pathId).Some?
      && QueryId(pathId).value in t.rows
    ensures r.Success? ==>
      && r.value.rows == t.rows - {QueryId(pathId).value}
      && r.value.nextId == t.nextId
      && Valid(r.value)
  {
    match Auth.Authenticate(t, header, env.now, env.jwt)
    case Failure(e) => Failure(e)
    case Success(_) =>
      match QueryId(pathId)
      case None => Failure(QueryFailed)
      case Some(id) => Members.Remove(t, id)
  }

  /** `POST api/reviews`: the new review is owned by the member the token resolves to. */
  ghost function CreateReview(db: Db, header: Option<string>, env: Env, dto: Reviews.CreateReviewDto)
    : (r: Result<(Reviews.ReviewTable, Reviews.Review), Failure>)
    requires ValidDb(db)
    ensures r.Success? <==>
      Auth.Authenticate(db.members, header, env.now, env.jwt).Success? && FitsInteger(dto.age)
    ensures Auth.Authenticate(db.members, header, env.now, env.jwt).Failure? ==>
      r == Failure(Unauthorized(Auth.UnauthorizedMessage))
    ensures Auth.Authenticate(db.members, header, env.now, env.jwt).Success? && !FitsInteger(dto.age) ==>
      r == Failure(QueryFailed)
    ensures r.Success? ==>
      && r.value.1.member == Auth.Authenticate(db.members, header, env.now, env.jwt).value
      && r.value.1.member.id in db.members.rows
      && r.value.1.company == dto.company && r.value.1.certificates == dto.certificates
      && r.value.1.age == dto.age && r.value.1.seekPeriod == dto.seekPeriod
      && r.value.1.tip == dto.tip
      && r.value.1.id !in db.reviews.rows
      && r.value.0.rows == db.reviews.rows[r.value.1.id := r.value.1]
      && Reviews.Valid(r.value.0)
  {
    match Auth.Authenticate(db.members, header, env.now, env.jwt)
    case Failure(e) => Failure(e)
    case Success(user) => Reviews.Create(db.reviews, user, dto)
  }

  /** `DELETE api/reviews/:id`: the service's ownership check against the caller's email. */
  ghost function DeleteReview(db: Db, header: Option<string>, env: Env, pathId: string)
    : (r: Result<Reviews.ReviewTable, Failure>)
    requires ValidDb(db)
    ensures Auth.Authenticate(db.members, header, env.now, env.jwt).Failure? ==>
      r == Failure(Unauthorized(Auth.UnauthorizedMessage))
    ensures Auth.Authenticate(db.members, header, env.now, env.jwt).Success? && QueryId(pathId).None? ==>
      r == Failure(QueryFailed)
    ensures r == Failure(NotFound(Reviews.ReviewMissing)) <==>
      && Auth.Authenticate(db.members, header, env.now, env.jwt).Success?
      && QueryId(pathId).Some? && QueryId(pathId).value !in db.reviews.rows
    ensures r == Failure(Forbidden(Reviews.NotOwner)) <==>
      && Auth.Authenticate(db.members, header, env.now, env.jwt).Success?
      && QueryId(pathId).Some? && QueryId(pathId).value in db.reviews.rows
      && db.reviews.rows[QueryId(pathId).value].member.email
         != Auth.Authenticate(db.members, header, env.now, env.jwt).value.email
    ensures r.Success? <==>
      && Auth.Authenticate(db.members, header, env.now, env.jwt).Success?
      && QueryId(pathId).Some? && QueryId(pathId).value in db.reviews.rows
      && db.reviews.rows[QueryId(pathId).value].member.email
         == Auth.Authenticate(db.members, header, env.now, env.jwt).value.email
    ensures r.Success? ==>
      && r.value.rows == db.reviews.rows - {QueryId(pathId).value}
      && r.value.nextId == db.reviews.nextId
  {
    match Auth.Authenticate(db.members, header, env.now, env.jwt)
    case Failure(e) => Failure(e)
    case Success(user) =>
      match QueryId(pathId)
      case None => Failure(QueryFailed)
      case Some(id) => Reviews.Remove(db.reviews, user.email, id)
  }

  /** Every route of the members controller, its registration route included, answers Unauthorized to a
      request without a bearer token. */
  lemma GuardOnEveryRoute(t: MemberTable, header: Option<string>, env: Env, pathId: string,
                          cdto: CreateMemberDto, udto: UpdateMemberDto)
    requires Valid(t) && Auth.BearerToken(header).None?
    ensures GetMe(t, header, env) == Failure(Unauthorized(Auth.UnauthorizedMessage))
    ensures CreateMember(t, header, env, cdto) == Failure(Unauthorized(Auth.UnauthorizedMessage))
    ensures FindMember(t, header, env, pathId) == Failure(Unauthorized(Auth.UnauthorizedMessage))
    ensures UpdateMember(t, header, env, pathId, udto) == Failure(Unauthorized(Auth.UnauthorizedMessage))
    ensures RemoveMember(t, header, env, pathId) == Failure(Unauthorized(Auth.UnauthorizedMessage))
  {
  }

  /** Update and delete act on the path id alone: any two authenticated callers get the same
      outcome, whether or not the path names them. */
  lemma ActsOnPathId(t: MemberTable, h1: Option<string>, h2: Option<string>, env: Env,
                     pathId: string, dto: UpdateMemberDto)
    requires Valid(t)
    requires Auth.Authenticate(t, h1, env.now, env.jwt).Success?
    requires Auth.Authenticate(t, h2, env.now, env.jwt).Success?
    ensures UpdateMember(t, h1, env, pathId, dto) == UpdateMember(t, h2, env, pathId, dto)
    ensures RemoveMember(t, h1, env, pathId) == RemoveMember(t, h2, env, pathId)
  {
  }

  /** Role is never consulted: an ADMIN who does not own a review is refused like anyone else. */
  lemma AdminIsNotExempt(db: Db, header: Option<string>, env: Env, id: nat)
    requires ValidDb(db)
    requires Auth.Authenticate(db.members, header, env.now, env.jwt).Success?
    requires Auth.Authenticate(db.members, header, env.now, env.jwt).value.role == ADMIN
    requires id in db.reviews.rows && id <= MaxId
    requires db.reviews.rows[id].member.email != Auth.Authenticate(db.members, header, env.now, env.jwt).value.email
    ensures DeleteReview(db, header, env, ShowId(id)) == Failure(Forbidden(Reviews.NotOwner))
  {
    ParseShowId(id);
  }
}

=== FILE: auth.dfy ===
/** `AuthService` (credential check and token issue) and `JwtStrategy` (bearer extraction,
    expiry, and resolving the token back to a stored member). */
module Auth {
  import opened Wrappers
  import opened Members
  import Crypto
  import Text

  const BadCredentials := "이메일 또는 비밀번호가 일치하지 않습니다."

  /** The message of a bare `UnauthorizedException`, also what the guard answers when passport
      rejects a token. */
  const UnauthorizedMessage := "Unauthorized"

  /** `validateUser`: the sanitised member when the email is known and the password verifies
      against its stored hash, otherwise null. */
  ghost function ValidateUser(t: MemberTable, email: string, pass: string, h: Crypto.Hasher)
    : (r: Option<MemberView>)
    requires Valid(t)
    ensures r.Some? <==>
      exists id :: id in t.rows && t.rows[id].email == email && h.compare(pass, t.rows[id].password)
    ensures r.Some? ==>
      exists id :: id in t.rows && t.rows[id].email == email && Sanitize(t.rows[id]) == r.value
  {
    match FindOneByEmail(t, email)
    case None => None
    case Some(m) => if h.compare(pass, m.password) then Some(Sanitize(m)) else None
  }

  /** The body `login` returns. */
  datatype LoginResponse = LoginResponse(access_token: string)

  /** What `login` signs for a validated member: `{ email, role, sub: id }`. */
  function PayloadOf(v: MemberView): Crypto.Payload {
    Crypto.Payload(v.email, RoleName(v.role), v.id)
  }

  /** `login`: Unauthorized with one fixed message whatever went wrong; otherwise a token
      signed over the member's email, role and id, valid for an hour from `now`. */
  ghost function Login(t: MemberTable, email: string, pass: string, h: Crypto.Hasher,
                       j: Crypto.TokenService, now: int)
    : (r: Result<LoginResponse, Failure>)
    requires Valid(t)
    ensures r.Failure? <==> ValidateUser(t, email, pass, h).None?
    ensures r.Failure? ==> r.error == Unauthorized(BadCredentials)
    ensures r.Success? ==>
      exists id :: id in t.rows && t.rows[id].email == email && h.compare(pass, t.rows[id].password)
        && r.value.access_token == j.sign(Crypto.Issue(
             Crypto.Payload(email, RoleName(t.rows[id].role), id), now))
  {
    match ValidateUser(t, email, pass, h)
    case None => Failure(Unauthorized(BadCredentials))
    case Some(v) => Success(LoginResponse(j.sign(Crypto.Issue(PayloadOf(v), now))))
  }

  /** An unknown email and a wrong password are indistinguishable to the caller. */
  lemma LoginFailuresAlike(t: MemberTable, e1: string, p1: string, e2: string, p2: string,
                           h: Crypto.Hasher, j: Crypto.TokenService, now: int)
    requires Valid(t)
    requires !HasEmail(t, e1)
    requires exists id :: id in t.rows && t.rows[id].email == e2 && !h.compare(p2, t.rows[id].password)
    ensures Login(t, e1, p1, h, j, now) == Login(t, e2, p2, h, j, now) == Failure(Unauthorized(BadCredentials))
  {
  }

  const BearerPrefix := "Bearer "

  /** `jwtFromRequest`: the header minus its first seven characters when it starts with exactly
      "Bearer ", otherwise null. */
  function BearerToken(header: Option<string>): (r: Option<string>)
    ensures r.Some? <==> header.Some? && Text.StartsWith(header.value, BearerPrefix)
    ensures r.Some? ==> header.value == BearerPrefix + r.value
  {
    if header.Some? && header.value != "" && Text.StartsWith(header.value, BearerPrefix) then
      Some(header.value[7..])
    else
      None
  }

  /** Prefixing a token and extracting it again gives the token back. */
  lemma BearerRoundTrip(token: string)
    ensures BearerToken(Some(BearerPrefix + token)) == Some(token)
  {
  }

  /** The scheme is matched case-sensitively, and other schemes are refused. */
  lemma BearerIsCaseSensitive(token: string)
    ensures BearerToken(Some("bearer " + token)) == None
    ensures BearerToken(Some("Basic " + token)) == None
    ensures BearerToken(None) == None
  {
    assert ("bearer " + token)[0] == 'b';
    assert ("Basic " + token)[1] == 'a';
  }

  /** `validate`: the stored member with the payload's email (the `sub` claim is not read), or
      Unauthorized when there is none any more. */
  ghost function Validate(t: MemberTable, p: Crypto.Payload): (r: Result<Member, Failure>)
    requires Valid(t)
    ensures r.Failure? <==> !HasEmail(t, p.email)
    ensures r.Failure? ==> r.error == Unauthorized(UnauthorizedMessage)
    ensures r.Success? ==>
      r.value.id in t.rows && t.rows[r.value.id] == r.value && r.value.email == p.email
  {
    match FindOneByEmail(t, p.email)
    case None => Failure(Unauthorized(UnauthorizedMessage))
    case Some(m) => Success(m)
  }

  /** The JWT guard as a whole: extract the bearer token, verify it, refuse it once expired, and
      resolve it to the stored member. Every refusal is the same Unauthorized. */
  ghost function Authenticate(t: MemberTable, header: Option<string>, now: int, j: Crypto.TokenService)
    : (r: Result<Member, Failure>)
    requires Valid(t)
    ensures r.Failure? ==> r.error == Unauthorized(UnauthorizedMessage)
    ensures BearerToken(header).None? ==> r.Failure?
    ensures BearerToken(header) == Some("") ==> r.Failure?
    ensures BearerToken(header).Some? && BearerToken(header).value != ""
      && j.verify(BearerToken(header).value).Some?
      && Crypto.Fresh(j.verify(BearerToken(header).value).value, now)
      && HasEmail(t, j.verify(BearerToken(header).value).value.payload.email)
      ==> r.Success?
    ensures r.Success? ==>
      && BearerToken(header).Some? && BearerToken(header).value != ""
      && j.verify(BearerToken(header).value).Some?
      && Crypto.Fresh(j.verify(BearerToken(header).value).value, now)
      && r.value.id in t.rows && t.rows[r.value.id] == r.value
      && r.value.email == j.verify(BearerToken(header).value).value.payload.email
  {
    match BearerToken(header)
    case None => Failure(Unauthorized(UnauthorizedMessage))
    case Some(token) =>
      if token == "" then Failure(Unauthorized(UnauthorizedMessage))
      else match j.verify(token)
        case None => Failure(Unauthorized(UnauthorizedMessage))
        case Some(c) =>
          if !Crypto.Fresh(c, now) then Failure(Unauthorized(UnauthorizedMessage))
          else Validate(t, c.payload)
  }

  /** A token from a successful login, presented as a bearer header within the hour, resolves to
      the member who logged in; from the hour's end on it is refused. */
  lemma LoginTokenAuthenticates(t: MemberTable, email: string, pass: string, h: Crypto.Hasher,
                                j: Crypto.TokenService, issued: int, now: int)
    requires Valid(t) && Crypto.SoundSigner(j)
    requires Login(t, email, pass, h, j, issued).Success?
    ensures var header := Some(BearerPrefix + Login(t, email, pass, h, j, issued).value.access_token);
      var r := Authenticate(t, header, now, j);
      && (now < issued + Crypto.ExpiresInSeconds ==> r.Success? && r.value.email == email)
      && (now >= issued + Crypto.ExpiresInSeconds ==> r.Failure?)
  {
  }

  /** Deleting a member revokes every token issued for it: the guard re-reads the table. */
  lemma RemovedMemberRejected(t: MemberTable, id: int, header: Option<string>, now: int,
                              j: Crypto.TokenService)
    requires Valid(t) && Remove(t, id).Success?
    requires id in t.rows
    requires var tok := BearerToken(header);
      tok.Some? && j.verify(tok.value).Some? && j.verify(tok.value).value.payload.email == t.rows[id].email
    ensures Authenticate(Remove(t, id).value, header, now, j).Failure?
  {
  }
}

=== FILE: auth_context.dfy ===
/** The frontend's session: the token kept in React state and in `localStorage`, the user decoded
    from it, and the login and logout actions. */
module AuthContext {
  import opened Wrappers
  import Json
  import Crypto

  /** The error `login` throws when the response carries no token. */
  const MissingTokenMessage := "응답 헤더에서 유효한 토큰을 찾을 수 없습니다."

  /** `MemberResponse` as `decodeToken` builds it: whatever the payload holds under `id` and
      `email`, unchecked. */
  datatype User = User(id: Json.Value, email: Json.Value)

  /** `decodeToken`. `parse` stands for the chain before the property reads: taking the second
      dot-separated part, base64url and URI decoding, and `JSON.parse`; it is `None` where any of
      them throws. Reading a property of a parsed `null` throws too, so that also yields `None`. */
  function DecodeToken(token: string, parse: string -> Option<Json.Value>): (r: Option<User>)
    ensures r.None? <==> parse(token).None? || parse(token).value.Null? || parse(token).value.Undefined?
    ensures r.Some? && parse(token).value.Obj? ==>
      && ("id" in parse(token).value.fields ==> r.value.id == parse(token).value.fields["id"])
      && ("id" !in parse(token).value.fields ==> r.value.id.Undefined?)
      && ("email" in parse(token).value.fields ==> r.value.email == parse(token).value.fields["email"])
      && ("email" !in parse(token).value.fields ==> r.value.email.Undefined?)
    ensures r.Some? && !parse(token).value.Obj? ==> r.value == User(Json.Undefined, Json.Undefined)
  {
    match parse(token)
    case None => None
    case Some(v) =>
      if v.Null? || v.Undefined? then None else Some(User(Json.Get(v, "id"), Json.Get(v, "email")))
  }

  /** A token the backend signs carries the member id under `sub`, never under `id`, so the user
      decoded from it has an undefined id and the member's email. */
  lemma BackendTokenHasNoId(token: string, c: Crypto.Claims, parse: string -> Option<Json.Value>)
    requires parse(token) == Some(Crypto.ClaimsJson(c))
    ensures DecodeToken(token, parse) == Some(User(Json.Undefined, Json.Str(c.payload.email)))
  {
  }

  /** The provider's state: the `token` state, the `user` state and what `localStorage` holds
      under the token key. */
  datatype Session = Session(token: Option<string>, user: Option<User>, stored: Option<string>)

  /** `isAuthenticated: !!token`: a token is present and not the empty string. */
  predicate IsAuthenticated(s: Session) {
    s.token.Some? && s.token.value != ""
  }

  /** The storage mirrors the token exactly when the session is authenticated and is empty
      otherwise: what the effect establishes. */
  predicate Synced(s: Session) {
    s.stored == (if IsAuthenticated(s) then s.token else None)
  }

  /** The effect that runs whenever `token` changes: with a token, store it and set the decoded
      user when decoding succeeds (keeping the previous user when it fails); without one, clear
      the storage and the user. */
  function Effect(s: Session, parse: string -> Option<Json.Value>): (r: Session)
    ensures r.token == s.token && Synced(r)
    ensures IsAuthenticated(s) && DecodeToken(s.token.value, parse).Some? ==>
      r.user == DecodeToken(s.token.value, parse)
    ensures IsAuthenticated(s) && DecodeToken(s.token.value, parse).None? ==> r.user == s.user
    ensures !IsAuthenticated(s) ==> r.user.None?
  {
    if IsAuthenticated(s) then
      var decoded := DecodeToken(s.token.value, parse);
      s.(user := if decoded.Some? then decoded else s.user, stored := s.token)
    else
      s.(user := None, stored := None)
  }

  /** Running the effect again changes nothing. */
  lemma EffectIdempotent(s: Session, parse: string -> Option<Json.Value>)
    ensures Effect(Effect(s, parse), parse) == Effect(s, parse)
  {
  }

  /** The provider's first render: `token` starts as the stored value, `user` as null, and the
      effect runs once. */
  function Mount(stored: Option<string>, parse: string -> Option<Json.Value>): (r: Session)
    ensures IsAuthenticated(r) <==> stored.Some? && stored.value != ""
    ensures Synced(r)
    ensures IsAuthenticated(r) ==> r.token == stored && r.user == DecodeToken(stored.value, parse)
    ensures !IsAuthenticated(r) ==> r.user.None?
  {
    Effect(Session(stored, None, stored), parse)
  }

  /** The state after setting the token: the effect runs only if the token actually changed. */
  function SetToken(s: Session, token: Option<string>, parse: string -> Option<Json.Value>): Session {
    if token == s.token then s else Effect(s.(token := token), parse)
  }

  /** `login`: with a non-empty token in the response, store it and make it the session's token;
      otherwise fail with the missing-token error and leave the session as it was. */
  function Login(s: Session, response: Option<string>, parse: string -> Option<Json.Value>)
    : (r: Result<Session, string>)
    ensures r.Failure? <==> response.None? || response.value == ""
    ensures r.Failure? ==> r.error == MissingTokenMessage
    ensures r.Success? ==> IsAuthenticated(r.value) && r.value.token == response
    ensures r.Success? && Synced(s) ==> Synced(r.value)
    ensures r.Success? && response != s.token && DecodeToken(response.value, parse).Some? ==>
      r.value.user == DecodeToken(response.value, parse)
    ensures r.Success? && (response == s.token || DecodeToken(response.value, parse).None?) ==>
      r.value.user == s.user
  {
    if response.Some? && response.value != "" then
      Success(SetToken(s.(stored := response), response, parse))
    else
      Failure(MissingTokenMessage)
  }

  /** `logout`: everything is cleared, whatever the session held. */
  function Logout(s: Session, parse: string -> Option<Json.Value>): (r: Session)
    ensures !IsAuthenticated(r) && r.user.None? && r.stored.None? && Synced(r)
  {
    SetToken(s.(stored := None, user := None), None, parse)
  }

  /** A session restored from storage after a logout is not authenticated. */
  lemma LogoutSurvivesReload(s: Session, parse: string -> Option<Json.Value>)
    ensures !IsAuthenticated(Mount(Logout(s, parse).stored, parse))
  {
  }

  /** A session restored from storage after a login carries the same token. */
  lemma LoginSurvivesReload(s: Session, response: Option<string>, parse: string -> Option<Json.Value>)
    requires Synced(s)
    requires Login(s, response, parse).Success?
    ensures Mount(Login(s, response, parse).value.stored, parse).token == response
  {
  }
}

=== FILE: certificate_form.dfy ===
/** The write-review page of the API-backed frontend: the body of `POST /api/reviews`, its
    certificate list, and the checks its submit handler runs before calling the API. */
module CertificateForm {
  import opened Wrappers
  import opened Text
  import EntryList
  import Lists
  import Reviews
  import Validation

  /** `CreateReviewRequest` as the form holds it. */
  datatype ReviewForm = ReviewForm(company: string, age: int, seekPeriod: string, tip: string,
                                   certificates: seq<string>)

  /** The form together with the text in the certificate input box. */
  datatype Page = Page(form: ReviewForm, newCertificate: string)

  function CertificateEditor(p: Page): EntryList.Editor {
    EntryList.Editor(p.form.certificates, p.newCertificate)
  }

  /** `addCertificate`: appends the trimmed name and clears the box exactly when the name is
      non-blank and new; there is no cap. */
  function AddCertificate(p: Page): (r: Page)
    ensures EntryList.Accepts(CertificateEditor(p), None) <==>
      !IsBlank(p.newCertificate) && Trim(p.newCertificate) !in p.form.certificates
    ensures EntryList.Accepts(CertificateEditor(p), None) ==>
      r.form == p.form.(certificates := p.form.certificates + [Trim(p.newCertificate)])
      && r.newCertificate == ""
    ensures !EntryList.Accepts(CertificateEditor(p), None) ==> r == p
    ensures EntryList.WellFormed(p.form.certificates) ==> EntryList.WellFormed(r.form.certificates)
  {
    var e := EntryList.Add(CertificateEditor(p), None);
    Page(p.form.(certificates := e.entries), e.input)
  }

  /** `removeCertificate`: drops every equal entry; the others keep their order. */
  function RemoveCertificate(p: Page, cert: string): (r: Page)
    ensures cert !in r.form.certificates
    ensures Lists.Subseq(r.form.certificates, p.form.certificates)
    ensures forall y :: y != cert ==> multiset(r.form.certificates)[y] == multiset(p.form.certificates)[y]
    ensures r.form.(certificates := p.form.certificates) == p.form && r.newCertificate == p.newCertificate
  {
    var e := EntryList.Remove(CertificateEditor(p), cert);
    Page(p.form.(certificates := e.entries), p.newCertificate)
  }

  /** However long the list, a new certificate is still accepted. */
  lemma NoCertificateCap(p: Page)
    requires !IsBlank(p.newCertificate) && Trim(p.newCertificate) !in p.form.certificates
    ensures |AddCertificate(p).form.certificates| == |p.form.certificates| + 1
  {
  }

  const InvalidMessage := "모든 필드를 올바르게 입력해주세요."

  /** `handleSubmit`'s guard: the API is called only when company, seek period and tip are
      non-blank once trimmed and the age is positive. */
  function Submit(f: ReviewForm): (r: Result<Reviews.CreateReviewDto, string>)
    ensures r.Success? <==>
      !IsBlank(f.company) && f.age > 0 && !IsBlank(f.seekPeriod) && !IsBlank(f.tip)
    ensures r.Failure? ==> r.error == InvalidMessage
    ensures r.Success? ==>
      r.value == Reviews.CreateReviewDto(f.company, f.certificates, f.age, f.seekPeriod, f.tip)
  {
    if IsBlank(f.company) || f.age <= 0 || IsBlank(f.seekPeriod) || IsBlank(f.tip) then
      Failure(InvalidMessage)
    else
      Success(Reviews.CreateReviewDto(f.company, f.certificates, f.age, f.seekPeriod, f.tip))
  }

  /** Whatever the page lets through, the backend's validation accepts unchanged. */
  lemma SubmittedFormPassesBackend(f: ReviewForm)
    requires Submit(f).Success?
    ensures Validation.ValidateReview(Validation.EncodeReview(Submit(f).value)) == Success(Submit(f).value)
  {
    Validation.ReviewRoundTrip(Submit(f).value);
    NotBlankNotEmpty(f.company);
  }

  /** The page is stricter than the backend: an age of zero and a blank tip are refused here,
      yet the backend accepts such a body. */
  lemma StricterThanBackend(company: string)
    requires !IsBlank(company)
    ensures var dto := Reviews.CreateReviewDto(company, [], 0, " ", "");
      && Submit(ReviewForm(company, 0, " ", "", [])).Failure?
      && Validation.ValidateReview(Validation.EncodeReview(dto)) == Success(dto)
  {
  }
}

=== FILE: crypto.dfy ===
/** The two foreign libraries the backend trusts: bcrypt for passwords and a JWT signer.
    Neither is modelled inside; each is a pair of functions plus the one law the code relies on. */
module Crypto {
  import opened Wrappers
  import Json

  /** bcrypt's `hash(plaintext, saltRounds)` and `compare(plaintext, hash)`. The random salt is
      part of the particular `hash` function a run uses. */
  datatype Hasher = Hasher(hash: (string, nat) -> string, compare: (string, string) -> bool)

  /** The cost factor passed to `bcrypt.hash` at registration. */
  const SaltRounds: nat := 10

  /** A hash verifies against the password it was made from, and is never that password. */
  ghost predicate SoundHasher(h: Hasher) {
    forall p: string, rounds: nat :: h.compare(p, h.hash(p, rounds)) && h.hash(p, rounds) != p
  }

  /** What `login` asks the signer to sign: `{ email, role, sub }`. */
  datatype Payload = Payload(email: string, role: string, sub: int)

  /** A signed token's claims: the payload plus the issue and expiry times, in seconds. */
  datatype Claims = Claims(payload: Payload, iat: int, exp: int)

  /** `signOptions: { expiresIn: '1h' }`. */
  const ExpiresInSeconds: int := 3600

  /** `jwtService.sign` and the signature-and-structure half of passport-jwt's verification. */
  datatype TokenService = TokenService(sign: Claims -> string, verify: string -> Option<Claims>)

  /** Whatever was signed verifies, with the claims it was signed with; a signed token (three
      dot-separated segments) is never empty. */
  ghost predicate SoundSigner(j: TokenService) {
    forall c: Claims :: j.verify(j.sign(c)) == Some(c) && j.sign(c) != ""
  }

  /** The claims a token issued at `now` carries: it is fresh exactly before `now + 1h`. */
  function Issue(p: Payload, now: int): (c: Claims)
    ensures c.payload == p && c.iat == now
    ensures forall t :: Fresh(c, t) <==> t < now + ExpiresInSeconds
  {
    Claims(p, now, now + ExpiresInSeconds)
  }

  /** `ignoreExpiration: false`: a token is refused once the clock reaches its `exp`. */
  predicate Fresh(c: Claims, now: int) {
    now < c.exp
  }

  /** The token's payload segment as JSON, which is what a client that base64-decodes it sees. */
  function ClaimsJson(c: Claims): Json.Value {
    Json.Obj(map[
      "email" := Json.Str(c.payload.email),
      "role" := Json.Str(c.payload.role),
      "sub" := Json.Num(c.payload.sub as real),
      "iat" := Json.Num(c.iat as real),
      "exp" := Json.Num(c.exp as real)])
  }
}

=== FILE: entry_list.dfy ===
/** The add/remove editor both review forms use for a list of short strings (tags in one,
    certificates in the other): a text input plus the entries added so far. */
module EntryList {
  import opened Wrappers
  import opened Text
  import opened Lists

  /** The list and the text currently in its input box. */
  datatype Editor = Editor(entries: seq<string>, input: string)

  /** What the add rule guarantees about a list built only through it: every entry is
      non-empty, already trimmed, and present once. */
  predicate WellFormed(entries: seq<string>) {
    && NoDup(entries)
    && forall k :: 0 <= k < |entries| ==> IsEntry(entries[k])
  }

  /** A single entry as the add rule produces it: non-empty and already trimmed. */
  predicate IsEntry(s: string) {
    s != "" && Trim(s) == s
  }

  /** The add button's condition: the trimmed input is non-blank, not yet listed, and the list
      is below its limit, if it has one. */
  predicate Accepts(e: Editor, limit: Option<nat>) {
    !IsBlank(e.input) && Trim(e.input) !in e.entries && (limit.None? || |e.entries| < limit.value)
  }

  /** Append the trimmed input and clear the box when it is accepted; otherwise change nothing. */
  function Add(e: Editor, limit: Option<nat>): (r: Editor)
    ensures Accepts(e, limit) ==> r.entries == e.entries + [Trim(e.input)] && r.input == ""
    ensures !Accepts(e, limit) ==> r == e
    ensures WellFormed(e.entries) ==> WellFormed(r.entries)
    ensures limit.Some? && |e.entries| <= limit.value ==> |r.entries| <= limit.value
  {
    if Accepts(e, limit) then
      var t := Trim(e.input);
      TrimIdempotent(e.input);
      if WellFormed(e.entries) then
        AppendWellFormed(e.entries, t);
        Editor(e.entries + [t], "")
      else
        Editor(e.entries + [t], "")
    else
      e
  }

  /** A new, non-empty, trimmed entry can be appended to a well-formed list. */
  lemma AppendWellFormed(entries: seq<string>, t: string)
    requires WellFormed(entries) && IsEntry(t) && t !in entries
    ensures WellFormed(entries + [t])
  {
    var r := entries + [t];
    forall i, j | 0 <= i < j < |r| ensures r[i] != r[j] {
      if j == |entries| {
        assert r[i] in entries;
      }
    }
  }

  /** `filter(x => x !== entry)`: every copy of `entry` goes, the rest stay in order, and the
      input box is untouched. */
  function Remove(e: Editor, entry: string): (r: Editor)
    ensures entry !in r.entries
    ensures forall y :: y != entry ==> multiset(r.entries)[y] == multiset(e.entries)[y]
    ensures Subseq(r.entries, e.entries) && |r.entries| <= |e.entries|
    ensures r.input == e.input
    ensures WellFormed(e.entries) ==> WellFormed(r.entries)
  {
    SubseqRefl(e.entries);
    WithoutIsSubseq(e.entries, entry, e.entries);
    if WellFormed(e.entries) then
      WithoutWellFormed(e.entries, entry);
      Editor(Without(e.entries, entry), e.input)
    else
      Editor(Without(e.entries, entry), e.input)
  }

  /** Removing entries from a well-formed list leaves it well-formed. */
  lemma WithoutWellFormed(xs: seq<string>, x: string)
    requires WellFormed(xs)
    ensures WellFormed(Without(xs, x))
  {
    var rest := Without(xs, x);
    forall k | 0 <= k < |rest| ensures IsEntry(rest[k]) {
      assert rest[k] in rest;
      var i :| 0 <= i < |xs| && xs[i] == rest[k];
    }
  }

  /** Adding an entry and then removing it restores the list (the input box stays cleared). */
  lemma AddThenRemove(e: Editor, limit: Option<nat>)
    requires Accepts(e, limit) && WellFormed(e.entries)
    ensures Remove(Add(e, limit), Trim(e.input)).entries == e.entries
  {
    var t := Trim(e.input);
    WithoutAbsent(e.entries, t);
    WithoutAppend(e.entries, t);
  }

  /** Removing something that is not there changes nothing. */
  lemma {:induction false} WithoutAbsent(xs: seq<string>, x: string)
    requires x !in xs
    ensures Without(xs, x) == xs
  {
    if |xs| > 0 {
      WithoutAbsent(xs[1..], x);
    }
  }

  /** Removing the element just appended drops it and keeps the rest. */
  lemma {:induction false} WithoutAppend(xs: seq<string>, x: string)
    ensures Without(xs + [x], x) == Without(xs, x)
  {
    if |xs| == 0 {
      assert Without([x], x) == [] + Without([x][1..], x);
    } else {
      WithoutAppend(xs[1..], x);
      assert (xs + [x])[1..] == xs[1..] + [x];
    }
  }
}

=== FILE: feed.dfy ===
/** The review lists of the home page and the reviews page: like and bookmark toggles, search,
    filters, sort orders and the company list. */
module Feed {
  import opened Text
  import opened Lists
  import Json

  /** `JobReview`. `createdAt` is the creation time already converted to milliseconds. */
  datatype JobReview = JobReview(
    id: string, title: string, company: string, position: string, content: string,
    salary: string, tags: seq<string>, authorId: Json.Value, createdAt: int,
    likes: int, isLiked: bool, bookmarks: int, isBookmarked: bool)

  /** The likes from everyone but the current user: what a like toggle must not change. */
  function OthersLikes(r: JobReview): int {
    r.likes - (if r.isLiked then 1 else 0)
  }

  /** The bookmarks from everyone but the current user. */
  function OthersBookmarks(r: JobReview): int {
    r.bookmarks - (if r.isBookmarked then 1 else 0)
  }

  function FlipLike(r: JobReview): JobReview {
    r.(isLiked := !r.isLiked, likes := if r.isLiked then r.likes - 1 else r.likes + 1)
  }

  function FlipBookmark(r: JobReview): JobReview {
    r.(isBookmarked := !r.isBookmarked,
       bookmarks := if r.isBookmarked then r.bookmarks - 1 else r.bookmarks + 1)
  }

  /** `handleLike(id)`: every review with that id flips `isLiked` and moves `likes` with it, so
      that the others' likes stay put; every other review, and the list's length and order, are
      unchanged. */
  function ToggleLike(rs: seq<JobReview>, id: string): (out: seq<JobReview>)
    ensures |out| == |rs|
    ensures forall i :: 0 <= i < |rs| && rs[i].id != id ==> out[i] == rs[i]
    ensures forall i :: 0 <= i < |rs| && rs[i].id == id ==>
      && out[i].isLiked == !rs[i].isLiked
      && OthersLikes(out[i]) == OthersLikes(rs[i])
      && out[i].(likes := rs[i].likes, isLiked := rs[i].isLiked) == rs[i]
  {
    seq(|rs|, i requires 0 <= i < |rs| => if rs[i].id == id then FlipLike(rs[i]) else rs[i])
  }

  /** `handleBookmark(id)`: the same toggle on `isBookmarked` and `bookmarks`. */
  function ToggleBookmark(rs: seq<JobReview>, id: string): (out: seq<JobReview>)
    ensures |out| == |rs|
    ensures forall i :: 0 <= i < |rs| && rs[i].id != id ==> out[i] == rs[i]
    ensures forall i :: 0 <= i < |rs| && rs[i].id == id ==>
      && out[i].isBookmarked == !rs[i].isBookmarked
      && OthersBookmarks(out[i]) == OthersBookmarks(rs[i])
      && out[i].(bookmarks := rs[i].bookmarks, isBookmarked := rs[i].isBookmarked) == rs[i]
  {
    seq(|rs|, i requires 0 <= i < |rs| => if rs[i].id == id then FlipBookmark(rs[i]) else rs[i])
  }

  /** Liking twice is not liking at all. */
  lemma ToggleLikeTwice(rs: seq<JobReview>, id: string)
    ensures ToggleLike(ToggleLike(rs, id), id) == rs
  {
  }

  /** Bookmarking twice is not bookmarking at all. */
  lemma ToggleBookmarkTwice(rs: seq<JobReview>, id: string)
    ensures ToggleBookmark(ToggleBookmark(rs, id), id) == rs
  {
  }

  /** The like and bookmark toggles act on separate fields, so their order does not matter. */
  lemma TogglesCommute(rs: seq<JobReview>, a: string, b: string)
    ensures ToggleLike(ToggleBookmark(rs, b), a) == ToggleBookmark(ToggleLike(rs, a), b)
  {
  }

  /** `s.toLowerCase().includes(term.toLowerCase())`. */
  predicate Mentions(s: string, term: string) {
    Includes(Lower(s), Lower(term))
  }

  /** The home page's search: title, company or position mentions the term. */
  predicate HomeMatches(r: JobReview, term: string) {
    Mentions(r.title, term) || Mentions(r.company, term) || Mentions(r.position, term)
  }

  /** The reviews page's search also looks at the content. */
  predicate ReviewsMatches(r: JobReview, term: string) {
    HomeMatches(r, term) || Mentions(r.content, term)
  }

  /** An empty search term matches every review. */
  lemma EmptyTermMatches(r: JobReview)
    ensures HomeMatches(r, "") && ReviewsMatches(r, "")
  {
  }

  function Likes(r: JobReview): int {
    r.likes
  }

  function CreatedAt(r: JobReview): int {
    r.createdAt
  }

  /** The home page's tabs. */
  datatype HomeTab = LatestTab | PopularTab | BookmarkedTab

  /** A review the home page shows: it matches the search, and on the bookmarked tab it is
      bookmarked. */
  predicate HomeKeeps(r: JobReview, term: string, tab: HomeTab) {
    HomeMatches(r, term) && (tab == BookmarkedTab ==> r.isBookmarked)
  }

  /** The home page's filter step: the kept reviews, each as often as in the list. */
  function HomeKept(rs: seq<JobReview>, term: string, tab: HomeTab): (out: seq<JobReview>)
    ensures forall r :: multiset(out)[r] == if HomeKeeps(r, term, tab) then multiset(rs)[r] else 0
  {
    var searched := Filter(rs, (r: JobReview) => HomeMatches(r, term));
    Filter(searched, (r: JobReview) => tab != BookmarkedTab || r.isBookmarked)
  }

  /** `filteredReviews` on the home page: the kept reviews, each as often as in the list, most
      liked first on the popular tab and newest first otherwise. */
  function HomeFeed(rs: seq<JobReview>, term: string, tab: HomeTab): (out: seq<JobReview>)
    ensures forall r :: multiset(out)[r] == if HomeKeeps(r, term, tab) then multiset(rs)[r] else 0
    ensures tab == PopularTab ==> SortedDesc(out, Likes)
    ensures tab != PopularTab ==> SortedDesc(out, CreatedAt)
  {
    var kept := HomeKept(rs, term, tab);
    var out := SortDesc(kept, if tab == PopularTab then Likes else CreatedAt);
    assert multiset(out) == multiset(kept);
    out
  }

  /** With no search term the latest and popular tabs show every review, only reordered. */
  lemma EmptySearchShowsAll(rs: seq<JobReview>, tab: HomeTab)
    requires tab != BookmarkedTab
    ensures multiset(HomeFeed(rs, "", tab)) == multiset(rs)
  {
  }

  /** A review the reviews page shows: it matches the search, its company equals the company
      filter when one is set, and its position contains the position filter when one is set. */
  predicate ReviewsKeeps(r: JobReview, term: string, company: string, position: string) {
    && ReviewsMatches(r, term)
    && (company == "" || r.company == company)
    && (position == "" || Includes(r.position, position))
  }

  /** The reviews page's filter step: exactly the kept reviews, in their original order. */
  function ReviewsFiltered(rs: seq<JobReview>, term: string, company: string, position: string)
    : (out: seq<JobReview>)
    ensures forall r :: r in out <==> r in rs && ReviewsKeeps(r, term, company, position)
    ensures Subseq(out, rs)
    ensures forall r ::
              multiset(out)[r] == if ReviewsKeeps(r, term, company, position) then multiset(rs)[r] else 0
  {
    FilterIsSubseq(rs, r => ReviewsKeeps(r, term, company, position));
    Filter(rs, r => ReviewsKeeps(r, term, company, position))
  }

  /** The reviews page's sort orders. */
  datatype SortBy = ByLatest | ByPopular

  /** `filteredAndSortedReviews`: the filtered list, reordered by its sort key. */
  function ReviewsFeed(rs: seq<JobReview>, term: string, company: string, position: string,
                       sortBy: SortBy)
    : (out: seq<JobReview>)
    ensures multiset(out) == multiset(ReviewsFiltered(rs, term, company, position))
    ensures forall r :: r in out <==> r in rs && ReviewsKeeps(r, term, company, position)
    ensures sortBy == ByPopular ==> SortedDesc(out, Likes)
    ensures sortBy == ByLatest ==> SortedDesc(out, CreatedAt)
  {
    var kept := ReviewsFiltered(rs, term, company, position);
    var out := SortDesc(kept, if sortBy == ByPopular then Likes else CreatedAt);
    assert forall r :: r in out <==> r in kept by {
      forall r ensures r in out <==> r in kept {
        assert r in out <==> multiset(out)[r] > 0;
        assert r in kept <==> multiset(kept)[r] > 0;
      }
    }
    out
  }

  /** The company drop-down: each company of the list once. */
  function Companies(rs: seq<JobReview>): (cs: seq<string>)
    ensures NoDup(cs)
    ensures forall c :: c in cs <==> exists i :: 0 <= i < |rs| && rs[i].company == c
  {
    var names := seq(|rs|, i requires 0 <= i < |rs| => rs[i].company);
    assert forall c :: c in names <==> exists i :: 0 <= i < |rs| && rs[i].company == c by {
      forall c ensures c in names <==> exists i :: 0 <= i < |rs| && rs[i].company == c {
        if c in names {
          var i :| 0 <= i < |names| && names[i] == c;
        }
        if exists i :: 0 <= i < |rs| && rs[i].company == c {
          var i :| 0 <= i < |rs| && rs[i].company == c;
          assert names[i] == c;
        }
      }
    }
    Dedup(names)
  }
}

=== FILE: json.dfy ===
/** The JavaScript values that reach the model from outside: request bodies and token payloads. */
module Json {

  /** A JSON value as JavaScript sees it after parsing, plus `undefined` for an absent property.
      Numbers are reals; the model never produces NaN. */
  datatype Value =
    | Undefined
    | Null
    | Bool(b: bool)
    | Num(n: real)
    | Str(s: string)
    | Arr(items: seq<Value>)
    | Obj(fields: map<string, Value>)

  /** Property access `v.key`: absent keys, and any key of a non-object, read as `undefined`. */
  function Get(v: Value, key: string): (r: Value)
    requires !v.Null? && !v.Undefined?
    ensures v.Obj? && key in v.fields ==> r == v.fields[key]
    ensures !(v.Obj? && key in v.fields) ==> r.Undefined?
  {
    if v.Obj? && key in v.fields then v.fields[key] else Undefined
  }

  /** Strict equality `===` on primitive values; objects and arrays compare by reference, which
      the model does not track, so two of them are never considered equal. */
  predicate StrictEquals(a: Value, b: Value) {
    a == b && !a.Arr? && !a.Obj?
  }

  /** `Number.isInteger(v)`. */
  predicate IsInteger(v: Value) {
    v.Num? && v.n.Floor as real == v.n
  }
}

=== FILE: lists.dfy ===
/** The array operations the pages build on: `filter`, `Array.from(new Set(...))` and a
    comparator `sort` by a descending integer key. */
module Lists {

  /** No element occurs twice. */
  predicate NoDup<T(==)>(xs: seq<T>) {
    forall i, j :: 0 <= i < j < |xs| ==> xs[i] != xs[j]
  }

  /** `a` is `b` with some elements dropped and the rest kept in order. */
  predicate Subseq<T(==)>(a: seq<T>, b: seq<T>)
    decreases |b|
  {
    |a| == 0 || (|b| > 0 && ((a[0] == b[0] && Subseq(a[1..], b[1..])) || Subseq(a, b[1..])))
  }

  /** `xs.filter(p)`: the elements satisfying `p`, each as often as in `xs`. */
  function Filter<T(!new)>(xs: seq<T>, p: T -> bool): (r: seq<T>)
    ensures |r| <= |xs|
    ensures forall x :: x in r <==> x in xs && p(x)
    ensures forall x :: multiset(r)[x] == if p(x) then multiset(xs)[x] else 0
  {
    if |xs| == 0 then []
    else
      assert xs == [xs[0]] + xs[1..];
      (if p(xs[0]) then [xs[0]] else []) + Filter(xs[1..], p)
  }

  /** Filtering keeps the surviving elements in their original order. */
  lemma {:induction false} FilterIsSubseq<T(!new)>(xs: seq<T>, p: T -> bool)
    ensures Subseq(Filter(xs, p), xs)
  {
    if |xs| > 0 {
      FilterIsSubseq(xs[1..], p);
      var rest := Filter(xs[1..], p);
      if p(xs[0]) {
        assert Filter(xs, p) == [xs[0]] + rest;
        assert ([xs[0]] + rest)[1..] == rest;
      } else {
        assert Filter(xs, p) == rest;
        if |rest| > 0 {
          assert Subseq(rest, xs[1..]);
        }
      }
    }
  }

  /** `Array.from(new Set(xs))`: every distinct element once, in order of first appearance. */
  function Dedup<T(==,!new)>(xs: seq<T>): (r: seq<T>)
    ensures NoDup(r)
    ensures forall x :: x in r <==> x in xs
    ensures Subseq(r, xs)
  {
    if |xs| == 0 then []
    else
      var rest := Without(Dedup(xs[1..]), xs[0]);
      WithoutIsSubseq(Dedup(xs[1..]), xs[0], xs[1..]);
      assert ([xs[0]] + rest)[1..] == rest;
      NoDupCons(xs[0], rest);
      [xs[0]] + rest
  }

  /** Putting a fresh element in front of a duplicate-free sequence keeps it duplicate-free. */
  lemma NoDupCons<T>(a: T, w: seq<T>)
    requires a !in w && NoDup(w)
    ensures NoDup([a] + w)
  {
  }

  /** `xs.filter(y => y !== x)`: every occurrence of `x` removed, the rest kept in order. */
  function Without<T(==,!new)>(xs: seq<T>, x: T): (r: seq<T>)
    ensures |r| <= |xs|
    ensures forall y :: y in r <==> y in xs && y != x
    ensures forall y :: y != x ==> multiset(r)[y] == multiset(xs)[y]
    ensures NoDup(xs) ==> NoDup(r)
  {
    if |xs| == 0 then []
    else
      assert xs == [xs[0]] + xs[1..];
      var rest := Without(xs[1..], x);
      if xs[0] != x then
        var r := [xs[0]] + rest;
        assert NoDup(xs) ==> NoDup(r) by {
          if NoDup(xs) {
            assert forall k :: 0 < k < |xs| ==> xs[0] != xs[k];
            assert xs[0] !in xs[1..];
            NoDupCons(xs[0], rest);
          }
        }
        r
      else
        rest
  }

  /** Removing elements from a subsequence keeps it a subsequence. */
  lemma {:induction false} WithoutIsSubseq<T(!new)>(xs: seq<T>, x: T, ys: seq<T>)
    requires Subseq(xs, ys)
    ensures Subseq(Without(xs, x), ys)
    decreases |ys|
  {
    if |xs| > 0 && |ys| > 0 {
      var w := Without(xs, x);
      if xs[0] == ys[0] && Subseq(xs[1..], ys[1..]) {
        WithoutIsSubseq(xs[1..], x, ys[1..]);
        if xs[0] != x {
          assert w == [xs[0]] + Without(xs[1..], x);
          assert w[1..] == Without(xs[1..], x);
        } else {
          assert w == Without(xs[1..], x);
          SubseqSkip(w, ys);
        }
      } else {
        WithoutIsSubseq(xs, x, ys[1..]);
        SubseqSkip(w, ys);
      }
    } else if |xs| == 0 {
      assert Without(xs, x) == [];
    }
  }

  /** Every sequence is a subsequence of itself. */
  lemma {:induction false} SubseqRefl<T>(xs: seq<T>)
    ensures Subseq(xs, xs)
  {
    if |xs| > 0 {
      SubseqRefl(xs[1..]);
    }
  }

  /** A subsequence of the tail of `ys` is a subsequence of `ys`. */
  lemma SubseqSkip<T>(a: seq<T>, ys: seq<T>)
    requires |ys| > 0 && Subseq(a, ys[1..])
    ensures Subseq(a, ys)
  {
  }

  /** The keys do not increase from left to right. */
  predicate SortedDesc<T>(xs: seq<T>, key: T -> int) {
    forall i, j :: 0 <= i < j < |xs| ==> key(xs[i]) >= key(xs[j])
  }

  /** Places `x` after every element of `s` with a larger key and before the rest, so that it
      precedes the elements of equal key (it came before them in the input). */
  function Insert<T(!new)>(x: T, s: seq<T>, key: T -> int): (r: seq<T>)
    ensures multiset(r) == multiset(s) + multiset{x}
    ensures forall y :: y in r <==> y in s || y == x
  {
    if |s| == 0 || key(s[0]) <= key(x) then [x] + s
    else
      assert s == [s[0]] + s[1..];
      [s[0]] + Insert(x, s[1..], key)
  }

  /** Inserting into a sorted sequence keeps it sorted. */
  lemma {:induction false} InsertSorted<T(!new)>(x: T, s: seq<T>, key: T -> int)
    requires SortedDesc(s, key)
    ensures SortedDesc(Insert(x, s, key), key)
  {
    if |s| > 0 && key(s[0]) > key(x) {
      var t := Insert(x, s[1..], key);
      InsertSorted(x, s[1..], key);
      assert Insert(x, s, key) == [s[0]] + t;
      forall k | 0 <= k < |t|
        ensures key(s[0]) >= key(t[k])
      {
        assert t[k] in t;
      }
    }
  }

  /** `xs.sort((a, b) => key(b) - key(a))`: a stable sort into non-increasing key order. */
  function SortDesc<T(!new)>(xs: seq<T>, key: T -> int): (r: seq<T>)
    ensures multiset(r) == multiset(xs)
    ensures SortedDesc(r, key)
  {
    if |xs| == 0 then []
    else
      assert xs == [xs[0]] + xs[1..];
      InsertSorted(xs[0], SortDesc(xs[1..], key), key);
      Insert(xs[0], SortDesc(xs[1..], key), key)
  }
}

=== FILE: members.dfy ===
/** The member entity and `MembersService`: registration, lookup, rename and deletion over the
    member table. */
module Members {
  import opened Wrappers
  import Crypto

  /** `MemberRole`. */
  datatype Role = USER | ADMIN

  /** The enum's string value, as it appears in token payloads. */
  function RoleName(r: Role): string {
    match r
    case USER => "USER"
    case ADMIN => "ADMIN"
  }

  /** A row of the member table; `password` holds the bcrypt hash. */
  datatype Member = Member(id: nat, email: string, name: string, password: string, role: Role)

  /** The member table: rows by their generated id, and the next value of the id sequence. */
  datatype MemberTable = MemberTable(rows: map<nat, Member>, nextId: nat)

  /** A fresh database: no rows, and the increment sequence starts at 1. */
  const EmptyTable := MemberTable(map[], 1)

  /** What the database keeps true: each row sits under its own id, ids come from the sequence
      (so they are positive and below its next value), and the email column is unique. */
  ghost predicate Valid(t: MemberTable) {
    && t.nextId > 0
    && (forall id :: id in t.rows ==> t.rows[id].id == id && 0 < id < t.nextId)
    && (forall a, b :: a in t.rows && b in t.rows && t.rows[a].email == t.rows[b].email ==> a == b)
  }

  /** Some row has exactly this email. */
  ghost predicate HasEmail(t: MemberTable, email: string) {
    exists id :: id in t.rows && t.rows[id].email == email
  }

  /** The validated registration body. It has no `role` and no `id`. */
  datatype CreateMemberDto = CreateMemberDto(email: string, password: string, name: string)

  /** The validated body of a rename. */
  datatype UpdateMemberDto = UpdateMemberDto(name: string)

  const EmailTaken := "이미 존재하는 이메일입니다."
  const MemberMissing := "사용자를 찾을 수 없습니다."

  /** `findOneByEmail`: the member whose email equals `email` exactly, or null. */
  ghost function FindOneByEmail(t: MemberTable, email: string): (r: Option<Member>)
    ensures r.None? <==> !HasEmail(t, email)
    ensures r.Some? ==> r.value.email == email && r.value in t.rows.Values
    ensures r.Some? && Valid(t) ==> r.value.id in t.rows && t.rows[r.value.id] == r.value
  {
    if HasEmail(t, email) then
      var id :| id in t.rows && t.rows[id].email == email;
      Some(t.rows[id])
    else
      None
  }

  /** `create`: refuse a taken email with Conflict; otherwise store the member with the hashed
      password, the default role and the next generated id, and return it. */
  ghost function Create(t: MemberTable, dto: CreateMemberDto, h: Crypto.Hasher)
    : (r: Result<(MemberTable, Member), Failure>)
    requires Valid(t)
    ensures r.Failure? <==> HasEmail(t, dto.email)
    ensures r.Failure? ==> r.error == Conflict(EmailTaken)
    ensures r.Success? ==>
      var (t', m) := r.value;
      && m.email == dto.email && m.name == dto.name && m.role == USER
      && m.password == h.hash(dto.password, Crypto.SaltRounds)
      && m.id !in t.rows
      && t'.rows == t.rows[m.id := m]
      && Valid(t')
      && (forall id :: id in t'.rows && t'.rows[id].email == dto.email <==> id == m.id)
    ensures r.Success? && Crypto.SoundHasher(h) ==>
      r.value.1.password != dto.password && h.compare(dto.password, r.value.1.password)
  {
    if FindOneByEmail(t, dto.email).Some? then
      Failure(Conflict(EmailTaken))
    else
      var m := Member(t.nextId, dto.email, dto.name, h.hash(dto.password, Crypto.SaltRounds), USER);
      Success((MemberTable(t.rows[m.id := m], t.nextId + 1), m))
  }

  /** `findOne`: the member with this id, or NotFound. */
  function FindOne(t: MemberTable, id: int): (r: Result<Member, Failure>)
    requires Valid(t)
    ensures r.Failure? <==> !(exists k :: k in t.rows && t.rows[k].id == id)
    ensures r.Failure? ==> r.error == NotFound(MemberMissing)
    ensures r.Success? ==> r.value in t.rows.Values && r.value.id == id
  {
    if id >= 0 && id in t.rows then Success(t.rows[id]) else Failure(NotFound(MemberMissing))
  }

  /** `update`: NotFound for a missing id; otherwise only the name may change, and only to a
      non-empty name. */
  function Update(t: MemberTable, id: int, dto: UpdateMemberDto): (r: Result<(MemberTable, Member), Failure>)
    requires Valid(t)
    ensures r.Failure? <==> !(id >= 0 && id in t.rows)
    ensures r.Failure? ==> r.error == NotFound(MemberMissing)
    ensures r.Success? ==>
      var (t', m) := r.value;
      var before := t.rows[id];
      && m.id == before.id && m.email == before.email
      && m.password == before.password && m.role == before.role
      && (dto.name != "" ==> m.name == dto.name)
      && (dto.name == "" ==> m == before)
      && t'.rows == t.rows[id := m] && t'.nextId == t.nextId
      && Valid(t')
  {
    match FindOne(t, id)
    case Failure(e) => Failure(e)
    case Success(member) =>
      var m := if dto.name != "" then member.(name := dto.name) else member;
      Success((t.(rows := t.rows[member.id := m]), m))
  }

  /** `remove`: NotFound when no row was deleted; otherwise that row is gone and no other row
      changed. */
  function Remove(t: MemberTable, id: int): (r: Result<MemberTable, Failure>)
    requires Valid(t)
    ensures r.Failure? <==> !(id >= 0 && id in t.rows)
    ensures r.Failure? ==> r.error == NotFound(MemberMissing)
    ensures r.Success? ==>
      && id !in r.value.rows
      && (forall k :: k in r.value.rows <==> k in t.rows && k != id)
      && (forall k :: k in r.value.rows ==> r.value.rows[k] == t.rows[k])
      && Valid(r.value)
  {
    if id >= 0 && id in t.rows then Success(t.(rows := t.rows - {id as nat}))
    else Failure(NotFound(MemberMissing))
  }

  /** The member as the API shows it: everything but the password hash. */
  datatype MemberView = MemberView(id: nat, name: string, email: string, role: Role)

  /** `sanitizeMember` (and the same object literal in `validateUser`). */
  function Sanitize(m: Member): MemberView {
    MemberView(m.id, m.name, m.email, m.role)
  }

  /** Two members look the same through the API exactly when they differ at most in their
      password hash: sanitising copies the other four fields and drops only the password. */
  lemma SanitizeDropsOnlyPassword(m1: Member, m2: Member)
    ensures Sanitize(m1) == Sanitize(m2) <==> m1.(password := m2.password) == m2
  {
  }
}

=== FILE: profile.dfy ===
/** The profile page: the three review lists, the stats line, the tabs and the edit form. */
module Profile {
  import opened Wrappers
  import opened Lists
  import Json
  import Feed
  import AuthContext

  /** `user?.id`: the signed-in user's id, `undefined` when nobody is signed in. */
  function UserId(user: Option<AuthContext.User>): (r: Json.Value)
    ensures user.None? ==> r.Undefined?
    ensures user.Some? ==> r == user.value.id
  {
    if user.Some? then user.value.id else Json.Undefined
  }

  /** `review.author.id === user?.id`. */
  predicate Authored(r: Feed.JobReview, user: Option<AuthContext.User>) {
    Json.StrictEquals(r.authorId, UserId(user))
  }

  /** `userReviews`: the reviews whose author is the user, in list order. */
  function UserReviews(rs: seq<Feed.JobReview>, user: Option<AuthContext.User>): (out: seq<Feed.JobReview>)
    ensures forall r :: r in out <==> r in rs && Authored(r, user)
    ensures Subseq(out, rs)
    ensures forall r :: multiset(out)[r] == if Authored(r, user) then multiset(rs)[r] else 0
  {
    FilterIsSubseq(rs, (r: Feed.JobReview) => Authored(r, user));
    Filter(rs, (r: Feed.JobReview) => Authored(r, user))
  }

  /** `likedReviews`: the reviews the current user liked, in list order. */
  function LikedReviews(rs: seq<Feed.JobReview>): (out: seq<Feed.JobReview>)
    ensures forall r :: r in out <==> r in rs && r.isLiked
    ensures Subseq(out, rs)
    ensures forall r :: multiset(out)[r] == if r.isLiked then multiset(rs)[r] else 0
  {
    FilterIsSubseq(rs, (r: Feed.JobReview) => r.isLiked);
    Filter(rs, (r: Feed.JobReview) => r.isLiked)
  }

  /** `bookmarkedReviews`: the reviews the current user bookmarked, in list order. */
  function BookmarkedReviews(rs: seq<Feed.JobReview>): (out: seq<Feed.JobReview>)
    ensures forall r :: r in out <==> r in rs && r.isBookmarked
    ensures Subseq(out, rs)
    ensures forall r :: multiset(out)[r] == if r.isBookmarked then multiset(rs)[r] else 0
  {
    FilterIsSubseq(rs, (r: Feed.JobReview) => r.isBookmarked);
    Filter(rs, (r: Feed.JobReview) => r.isBookmarked)
  }

  /** The reference sum of the likes of a list. */
  function TotalLikes(rs: seq<Feed.JobReview>): int {
    if rs == [] then 0 else rs[0].likes + TotalLikes(rs[1..])
  }

  /** `rs.reduce((total, review) => total + review.likes, acc)`: a left fold. */
  function ReduceLikes(acc: int, rs: seq<Feed.JobReview>): int
    decreases |rs|
  {
    if rs == [] then acc else ReduceLikes(acc + rs[0].likes, rs[1..])
  }

  /** The fold adds the list's total likes to its starting value. */
  lemma {:induction false} ReduceIsTotal(acc: int, rs: seq<Feed.JobReview>)
    ensures ReduceLikes(acc, rs) == acc + TotalLikes(rs)
    decreases |rs|
  {
    if rs != [] {
      ReduceIsTotal(acc + rs[0].likes, rs[1..]);
    }
  }

  /** The stats line. */
  datatype Stats = Stats(reviews: nat, likes: int, bookmarks: nat)

  /** `stats`: how many reviews the user wrote, the likes those reviews got, and how many
      reviews are bookmarked. */
  function ProfileStats(rs: seq<Feed.JobReview>, user: Option<AuthContext.User>): (s: Stats)
    ensures s.reviews == |UserReviews(rs, user)|
    ensures s.likes == TotalLikes(UserReviews(rs, user))
    ensures s.bookmarks == |BookmarkedReviews(rs)|
  {
    var mine := UserReviews(rs, user);
    ReduceIsTotal(0, mine);
    Stats(|mine|, ReduceLikes(0, mine), |BookmarkedReviews(rs)|)
  }

  /** The content tabs. */
  datatype Tab = MyReviews | Liked | Bookmarked

  /** Whether a tab lists a review. */
  predicate Shows(tab: Tab, r: Feed.JobReview, user: Option<AuthContext.User>) {
    match tab
    case MyReviews => Authored(r, user)
    case Liked => r.isLiked
    case Bookmarked => r.isBookmarked
  }

  /** `getCurrentReviews()`: the reviews the active tab lists, in list order. */
  function CurrentReviews(rs: seq<Feed.JobReview>, user: Option<AuthContext.User>, tab: Tab)
    : (out: seq<Feed.JobReview>)
    ensures forall r :: r in out <==> r in rs && Shows(tab, r, user)
    ensures Subseq(out, rs)
    ensures forall r :: multiset(out)[r] == if Shows(tab, r, user) then multiset(rs)[r] else 0
  {
    match tab
    case Liked => LikedReviews(rs)
    case Bookmarked => BookmarkedReviews(rs)
    case MyReviews => UserReviews(rs, user)
  }

  /** Signed in with a token the backend issued, the user's id is `undefined`, so "my reviews"
      lists exactly the reviews whose author id is `undefined` too. */
  lemma BackendUserOwnsOnlyAnonymousReviews(
    rs: seq<Feed.JobReview>, token: string, c: AuthContext.Crypto.Claims,
    parse: string -> Option<Json.Value>)
    requires parse(token) == Some(AuthContext.Crypto.ClaimsJson(c))
    ensures var user := AuthContext.DecodeToken(token, parse);
      forall r :: r in UserReviews(rs, user) <==> r in rs && r.authorId.Undefined?
  {
  }

  /** The edit form. */
  datatype EditForm = EditForm(name: string, university: string, major: string)

  /** The page's own state. */
  datatype ProfileState = ProfileState(isEditing: bool, form: EditForm, tab: Tab)

  /** The initial state: `user?.name || ''` and its siblings read fields the decoded user does not
      have, so the form starts blank; the page opens on "my reviews", not editing. */
  function InitialState(user: Option<AuthContext.User>): (s: ProfileState)
    ensures !s.isEditing && s.tab == MyReviews
    ensures s.form.name == "" && s.form.university == "" && s.form.major == ""
  {
    ProfileState(false, EditForm("", "", ""), MyReviews)
  }

  /** The edit button. */
  function StartEditing(s: ProfileState): (r: ProfileState)
    ensures r.isEditing && r.form == s.form && r.tab == s.tab
  {
    s.(isEditing := true)
  }

  /** `handleSave`: leaves edit mode and saves nothing, exactly like the cancel button. */
  function Save(s: ProfileState): (r: ProfileState)
    ensures !r.isEditing && r.form == s.form && r.tab == s.tab
  {
    s.(isEditing := false)
  }
}

=== FILE: review_card.dfy ===
/** The review card: which tags it shows, its overflow badge, and what its buttons report. */
module ReviewCard {
  import opened Wrappers
  import Feed

  /** How many tags a card shows. */
  const ShownTags: nat := 3

  /** `review.tags.slice(0, 3)`: the first tags, in order, at most three. */
  function VisibleTags(tags: seq<string>): (r: seq<string>)
    ensures |r| == if |tags| < ShownTags then |tags| else ShownTags
    ensures r == tags[..|r|]
  {
    if |tags| <= ShownTags then tags else tags[..ShownTags]
  }

  /** The "+n" badge: present exactly when tags were left out, counting them. */
  function OverflowBadge(tags: seq<string>): (r: Option<nat>)
    ensures r.Some? <==> |tags| > ShownTags
    ensures r.Some? ==> |VisibleTags(tags)| + r.value == |tags|
  {
    if |tags| > ShownTags then Some(|tags| - ShownTags) else None
  }

  /** The card's two buttons. */
  datatype Button = LikeButton | BookmarkButton

  /** The id a button passes to its callback: the card's own review id, so a click is
      `Feed.ToggleLike` or `Feed.ToggleBookmark` at that id, and flips exactly the reviews
      carrying it. */
  function ButtonArgument(review: Feed.JobReview, b: Button): string {
    review.id
  }
}

=== FILE: reviews.dfy ===
/** The review entity and `ReviewsService`: creation on behalf of the calling member, and
    deletion by that member only. */
module Reviews {
  import opened Wrappers
  import Members

  /** A row of the review table. `member` is the many-to-one owner as the relation loads it;
      no operation changes a member's email, so its email is the owner's current one. */
  datatype Review = Review(id: nat, member: Members.Member, company: string,
                           certificates: seq<string>, age: int, seekPeriod: string, tip: string)

  /** The validated creation body. It names no owner. */
  datatype CreateReviewDto = CreateReviewDto(company: string, certificates: seq<string>, age: int,
                                             seekPeriod: string, tip: string)

  /** The review table and its id sequence. */
  datatype ReviewTable = ReviewTable(rows: map<nat, Review>, nextId: nat)

  const EmptyTable := ReviewTable(map[], 1)

  /** Each row sits under its own generated id. */
  ghost predicate Valid(rt: ReviewTable) {
    && rt.nextId > 0
    && forall id :: id in rt.rows ==> rt.rows[id].id == id && 0 < id < rt.nextId
  }

  const ReviewMissing := "Review not found"
  const NotOwner := "권한이 없습니다."

  /** `create`: a new row, under a fresh id, owned by the calling member and otherwise holding
      exactly the body's fields. The `integer` age column refuses an age out of its range, so
      the insert fails. */
  function Create(rt: ReviewTable, member: Members.Member, dto: CreateReviewDto)
    : (r: Result<(ReviewTable, Review), Failure>)
    requires Valid(rt)
    ensures r.Failure? <==> !FitsInteger(dto.age)
    ensures r.Failure? ==> r.error == QueryFailed
    ensures r.Success? ==> var (rt', review) := r.value;
      && review.member == member
      && review.company == dto.company && review.certificates == dto.certificates
      && review.age == dto.age && review.seekPeriod == dto.seekPeriod && review.tip == dto.tip
      && review.id !in rt.rows
      && rt'.rows == rt.rows[review.id := review]
      && Valid(rt')
  {
    if !FitsInteger(dto.age) then Failure(QueryFailed)
    else
      var review := Review(rt.nextId, member, dto.company, dto.certificates, dto.age,
                           dto.seekPeriod, dto.tip);
      Success((ReviewTable(rt.rows[review.id := review], rt.nextId + 1), review))
  }

  /** `remove`: NotFound for an unknown id (checked first), Forbidden when the owner's email is
      not the caller's, and otherwise the row is deleted and nothing else changes. */
  function Remove(rt: ReviewTable, memberEmail: string, id: int): (r: Result<ReviewTable, Failure>)
    requires Valid(rt)
    ensures r == Failure(NotFound(ReviewMissing)) <==> !(id >= 0 && id in rt.rows)
    ensures r == Failure(Forbidden(NotOwner)) <==>
      id >= 0 && id in rt.rows && rt.rows[id].member.email != memberEmail
    ensures r.Success? <==> id >= 0 && id in rt.rows && rt.rows[id].member.email == memberEmail
    ensures r.Success? ==>
      && (forall k :: k in r.value.rows <==> k in rt.rows && k != id)
      && (forall k :: k in r.value.rows ==> r.value.rows[k] == rt.rows[k])
      && r.value.nextId == rt.nextId
  {
    if !(id >= 0 && id in rt.rows) then Failure(NotFound(ReviewMissing))
    else if rt.rows[id].member.email != memberEmail then Failure(Forbidden(NotOwner))
    else Success(rt.(rows := rt.rows - {id as nat}))
  }

  /** Whoever asks, an unknown id is NotFound: the ownership check never runs. */
  lemma MissingBeforeForbidden(rt: ReviewTable, e1: string, e2: string, id: int)
    requires Valid(rt) && !(id >= 0 && id in rt.rows)
    ensures Remove(rt, e1, id) == Remove(rt, e2, id) == Failure(NotFound(ReviewMissing))
  {
  }

  /** Removing is permanent: the table stays valid and a second attempt finds nothing. */
  lemma RemoveOnce(rt: ReviewTable, email: string, id: int)
    requires Valid(rt) && Remove(rt, email, id).Success?
    ensures Valid(Remove(rt, email, id).value)
    ensures Remove(Remove(rt, email, id).value, email, id) == Failure(NotFound(ReviewMissing))
  {
  }
}

=== FILE: routes.dfy ===
/** The application shell: which page a path shows, the protected-route guard, and when the
    navigation bar appears. */
module Routes {
  import opened Text

  /** A path as its non-empty segments: `/reviews/7` is `["reviews", "7"]` and `/` is `[]`. */
  type Path = seq<string>

  /** The pages a route can render. */
  datatype Page =
    | LoginPage
    | RegisterPage
    | HomePage
    | ReviewsPage
    | ReviewDetailPage(id: string)
    | WriteReviewPage
    | ProfilePage

  /** What rendering a path produces: a page, or a replacing redirect to another path. */
  datatype Outcome = Render(page: Page) | Redirect(to: Path)

  /** Pages only a signed-in visitor may see. */
  predicate Protected(p: Page) {
    !p.LoginPage? && !p.RegisterPage?
  }

  /** `ProtectedRoute`: the page when signed in, otherwise a redirect to `/`. */
  function Guard(p: Page, authenticated: bool): (r: Outcome)
    ensures r.Render? <==> authenticated
    ensures r.Render? ==> r.page == p
    ensures r.Redirect? ==> r.to == []
  {
    if authenticated then Render(p) else Redirect([])
  }

  /** The path each page is declared under; a detail page's id fills the `:id` segment. */
  function PathOf(p: Page): Path {
    match p
    case LoginPage => []
    case RegisterPage => ["register"]
    case HomePage => ["home"]
    case ReviewsPage => ["reviews"]
    case ReviewDetailPage(id) => ["reviews", id]
    case WriteReviewPage => ["write"]
    case ProfilePage => ["profile"]
  }

  /** A page that some path can name: the `:id` segment is never empty. */
  predicate Addressable(p: Page) {
    p.ReviewDetailPage? ==> p.id != ""
  }

  /** A static path segment matches without regard to ASCII letter case. */
  predicate Is(segment: string, name: string) {
    Lower(segment) == name
  }

  /** The route table, tried top to bottom; anything unmatched redirects to `/`. */
  function Route(path: Path, authenticated: bool): (r: Outcome)
    ensures r.Render? && Protected(r.page) ==> authenticated
    ensures r.Render? && !Protected(r.page) ==> !authenticated
    ensures r.Redirect? ==> r.to == [] || (r.to == ["home"] && authenticated)
    ensures r.Render? ==> Addressable(r.page) && |path| == |PathOf(r.page)|
    ensures r.Render? ==> forall k :: 0 <= k < |path| ==>
      if r.page.ReviewDetailPage? && k == 1 then path[k] == PathOf(r.page)[k]
      else Lower(path[k]) == PathOf(r.page)[k]
  {
    if path == [] then
      (if authenticated then Redirect(["home"]) else Render(LoginPage))
    else if |path| == 1 && Is(path[0], "register") then
      (if authenticated then Redirect(["home"]) else Render(RegisterPage))
    else if |path| == 1 && Is(path[0], "home") then Guard(HomePage, authenticated)
    else if |path| == 1 && Is(path[0], "reviews") then Guard(ReviewsPage, authenticated)
    else if |path| == 2 && Is(path[0], "reviews") && path[1] != "" then
      Guard(ReviewDetailPage(path[1]), authenticated)
    else if |path| == 1 && Is(path[0], "write") then Guard(WriteReviewPage, authenticated)
    else if |path| == 1 && Is(path[0], "profile") then Guard(ProfilePage, authenticated)
    else Redirect([])
  }

  /** Lower-casing leaves a string without upper-case ASCII letters as it is. */
  lemma LowerKeeps(s: string)
    requires forall k :: 0 <= k < |s| ==> !('A' <= s[k] <= 'Z')
    ensures Lower(s) == s
  {
  }

  /** The route table itself: each page's own path renders it, behind the guard for a protected
      page, while the login and registration pages send a signed-in visitor to `/home`. */
  lemma RouteTable(p: Page, authenticated: bool)
    requires Addressable(p)
    ensures Route(PathOf(p), authenticated) ==
      if Protected(p) then Guard(p, authenticated)
      else if authenticated then Redirect(["home"])
      else Render(p)
  {
    LowerKeeps("register");
    LowerKeeps("home");
    LowerKeeps("reviews");
    LowerKeeps("write");
    LowerKeeps("profile");
  }

  /** Follows redirects, at most `hops` of them. */
  function Follow(path: Path, authenticated: bool, hops: nat): Outcome
    decreases hops
  {
    match Route(path, authenticated)
    case Render(p) => Render(p)
    case Redirect(to) => if hops == 0 then Redirect(to) else Follow(to, authenticated, hops - 1)
  }

  /** Every path settles on a page within two redirects: the home page for a signed-in visitor
      who did not ask for a page of theirs, the login page for anyone else. */
  lemma RoutingSettles(path: Path, authenticated: bool)
    ensures Follow(path, authenticated, 2).Render?
    ensures Route(path, authenticated).Redirect? ==>
      Follow(path, authenticated, 2).page == (if authenticated then HomePage else LoginPage)
  {
  }

  /** A visitor who is not signed in sees only the login and registration pages. */
  lemma SignedOutSeesOnlyPublicPages(path: Path)
    ensures Follow(path, false, 2).page in {LoginPage, RegisterPage}
  {
  }

  /** What the shell shows: the navigation bar, and the page the path settles on. */
  datatype Screen = Screen(navigation: bool, page: Page)

  /** `AppContent`: the navigation bar exactly when signed in, above the routed page. */
  function Show(path: Path, authenticated: bool): (s: Screen)
    ensures s.navigation <==> authenticated
    ensures Protected(s.page) <==> authenticated
  {
    RoutingSettles(path, authenticated);
    Screen(authenticated, Follow(path, authenticated, 2).page)
  }
}

=== FILE: scenario.dfy ===
/** A whole session against the backend: two members register, one posts a review, the other
    may not delete it, its owner may, and it is then gone. */
module Scenario {
  import opened Wrappers
  import Members
  import Reviews
  import Auth
  import Api
  import Crypto

  const Alice := Members.CreateMemberDto("alice@x.com", "alice-pw", "Alice")
  const Bob := Members.CreateMemberDto("bob@x.com", "bob-pw", "Bob")
  const Acme := Reviews.CreateReviewDto("Acme", ["TOEIC"], 24, "3 months", "prep early")

  /** Registering the same email twice: the second attempt is a Conflict, and exactly one member
      has the email. */
  lemma {:induction false} RegisterTwice(t: Members.MemberTable, dto: Members.CreateMemberDto,
                                         again: Members.CreateMemberDto, h: Crypto.Hasher)
    requires Members.Valid(t) && Members.Create(t, dto, h).Success?
    requires again.email == dto.email
    ensures var (t', m) := Members.Create(t, dto, h).value;
      && Members.Create(t', again, h) == Failure(Conflict(Members.EmailTaken))
      && forall id :: id in t'.rows && t'.rows[id].email == dto.email <==> id == m.id
  {
    var (t', m) := Members.Create(t, dto, h).value;
    assert t'.rows[m.id].email == again.email;
  }

  /** Alice and Bob register through `POST api/join` and log in at the same instant. Alice posts a review. Bob's delete is
      Forbidden; Alice's succeeds; a second delete is NotFound. */
  lemma {:induction false} AliceAndBob(h: Crypto.Hasher, j: Crypto.TokenService, now: int)
    requires Crypto.SoundHasher(h) && Crypto.SoundSigner(j)
    ensures
      var env := Api.Env(h, j, now);
      var r1 := Api.Join(Members.EmptyTable, env, Alice);
      r1.Success? &&
      var r2 := Api.Join(r1.value.0, env, Bob);
      r2.Success? &&
      var t := r2.value.0;
      var aliceLogin := Auth.Login(t, Alice.email, Alice.password, h, j, now);
      var bobLogin := Auth.Login(t, Bob.email, Bob.password, h, j, now);
      aliceLogin.Success? && bobLogin.Success? &&
      var aliceHeader := Some(Auth.BearerPrefix + aliceLogin.value.access_token);
      var bobHeader := Some(Auth.BearerPrefix + bobLogin.value.access_token);
      var db := Api.Db(t, Reviews.EmptyTable);
      var created := Api.CreateReview(db, aliceHeader, env, Acme);
      created.Success? &&
      var db' := db.(reviews := created.value.0);
      var path := Api.ShowId(created.value.1.id);
      && Api.DeleteReview(db', bobHeader, env, path) == Failure(Forbidden(Reviews.NotOwner))
      && Api.DeleteReview(db', aliceHeader, env, path).Success?
      && Api.DeleteReview(db'.(reviews := Api.DeleteReview(db', aliceHeader, env, path).value),
                          aliceHeader, env, path)
         == Failure(NotFound(Reviews.ReviewMissing))
  {
    var env := Api.Env(h, j, now);
    var r1 := Api.Join(Members.EmptyTable, env, Alice);
    assert !Members.HasEmail(Members.EmptyTable, Alice.email);
    var (t1, aliceView) := r1.value;
    var alice := t1.rows[aliceView.id];
    assert t1.rows == map[alice.id := alice];
    var r2 := Api.Join(t1, env, Bob);
    assert !Members.HasEmail(t1, Bob.email) by {
      assert "bob@x.com"[0] != "alice@x.com"[0];
    }
    var (t, bobView) := r2.value;
    var bob := t.rows[bobView.id];
    assert alice.id in t.rows && t.rows[alice.id] == alice;
    assert bob.id in t.rows && t.rows[bob.id] == bob;
    assert Auth.ValidateUser(t, Alice.email, Alice.password, h).Some? by {
      assert h.compare(Alice.password, t.rows[alice.id].password);
    }
    assert Auth.ValidateUser(t, Bob.email, Bob.password, h).Some? by {
      assert h.compare(Bob.password, t.rows[bob.id].password);
    }
    var aliceLogin := Auth.Login(t, Alice.email, Alice.password, h, j, now);
    var bobLogin := Auth.Login(t, Bob.email, Bob.password, h, j, now);
    Auth.LoginTokenAuthenticates(t, Alice.email, Alice.password, h, j, now, now);
    Auth.LoginTokenAuthenticates(t, Bob.email, Bob.password, h, j, now, now);
    var aliceHeader := Some(Auth.BearerPrefix + aliceLogin.value.access_token);
    var bobHeader := Some(Auth.BearerPrefix + bobLogin.value.access_token);
    var db := Api.Db(t, Reviews.EmptyTable);
    var created := Api.CreateReview(db, aliceHeader, env, Acme);
    var db' := db.(reviews := created.value.0);
    var review := created.value.1;
    assert review.id == 1 <= Api.MaxId;
    Api.ParseShowId(review.id);
    var path := Api.ShowId(review.id);
    assert review.member.email == Alice.email;
    assert "alice@x.com" != "bob@x.com" by {
      assert "bob@x.com"[0] != "alice@x.com"[0];
    }
    var deleted := Api.DeleteReview(db', aliceHeader, env, path);
    assert deleted.Success?;
    assert review.id !in deleted.value.rows;
  }
}

=== FILE: tag_form.dfy ===
/** The write-review page of the mock-data frontend: a titled review with up to five tags, and
    the checks its submit handler runs before posting. */
module TagForm {
  import opened Wrappers
  import opened Text
  import EntryList
  import Lists

  /** The most tags a review may carry. */
  const MaxTags: nat := 5

  /** `ReviewFormData`. */
  datatype ReviewForm = ReviewForm(title: string, company: string, position: string, salary: string,
                                   content: string, tags: seq<string>)

  /** The form together with the text in the tag input box. */
  datatype Page = Page(form: ReviewForm, newTag: string)

  function TagEditor(p: Page): EntryList.Editor {
    EntryList.Editor(p.form.tags, p.newTag)
  }

  /** `addTag`: appends the trimmed tag and clears the box exactly when the tag is non-blank, new,
      and fewer than five tags exist; otherwise the page is unchanged. */
  function AddTag(p: Page): (r: Page)
    ensures EntryList.Accepts(TagEditor(p), Some(MaxTags)) ==>
      r.form == p.form.(tags := p.form.tags + [Trim(p.newTag)]) && r.newTag == ""
    ensures !EntryList.Accepts(TagEditor(p), Some(MaxTags)) ==> r == p
    ensures TagsOk(p.form.tags) ==> TagsOk(r.form.tags)
  {
    var e := EntryList.Add(TagEditor(p), Some(MaxTags));
    Page(p.form.(tags := e.entries), e.input)
  }

  /** The tag list invariant: at most five tags, each non-blank, trimmed and unique. */
  predicate TagsOk(tags: seq<string>) {
    |tags| <= MaxTags && EntryList.WellFormed(tags)
  }

  /** `removeTag`: drops the tag by equality; the others keep their order. */
  function RemoveTag(p: Page, tag: string): (r: Page)
    ensures tag !in r.form.tags
    ensures Lists.Subseq(r.form.tags, p.form.tags)
    ensures forall y :: y != tag ==> multiset(r.form.tags)[y] == multiset(p.form.tags)[y]
    ensures r.form.(tags := p.form.tags) == p.form && r.newTag == p.newTag
    ensures TagsOk(p.form.tags) ==> TagsOk(r.form.tags)
  {
    var e := EntryList.Remove(TagEditor(p), tag);
    Page(p.form.(tags := e.entries), p.newTag)
  }

  /** The add button's `disabled` attribute. */
  predicate AddDisabled(p: Page) {
    IsBlank(p.newTag) || |p.form.tags| >= MaxTags
  }

  /** The button is disabled exactly when blankness or the cap would refuse the tag; an enabled
      button still refuses a tag that is already listed. */
  lemma AddButtonMatchesRule(p: Page)
    ensures AddDisabled(p) ==> AddTag(p) == p
    ensures !AddDisabled(p) ==>
      (AddTag(p) == p <==> Trim(p.newTag) in p.form.tags)
  {
  }

  const RequiredMessage := "제목, 기업명, 내용은 필수 항목입니다."
  const TooShortMessage := "후기 내용은 50자 이상 작성해주세요."

  /** The shortest content, in characters, the page accepts. */
  const MinContentLength: nat := 50

  /** The submit handler's verdict: posted, or refused with the message shown. */
  datatype Verdict = Posted | Refused(message: string)

  /** `handleSubmit`'s checks: title, company and content must be non-blank once trimmed; only
      then is the untrimmed content required to be at least fifty characters long. */
  function Submit(f: ReviewForm): (r: Verdict)
    ensures r == Refused(RequiredMessage) <==>
      IsBlank(f.title) || IsBlank(f.company) || IsBlank(f.content)
    ensures r == Refused(TooShortMessage) <==>
      !IsBlank(f.title) && !IsBlank(f.company) && !IsBlank(f.content) && |f.content| < MinContentLength
    ensures r == Posted <==>
      !IsBlank(f.title) && !IsBlank(f.company) && !IsBlank(f.content) && |f.content| >= MinContentLength
  {
    if IsBlank(f.title) || IsBlank(f.company) || IsBlank(f.content) then Refused(RequiredMessage)
    else if |f.content| < MinContentLength then Refused(TooShortMessage)
    else Posted
  }

  /** Length is measured before trimming: fifty characters of which only one is not white space
      pass both checks. */
  lemma PaddingCountsTowardsLength(f: ReviewForm)
    requires !IsBlank(f.title) && !IsBlank(f.company)
    requires f.content == "x" + seq(49, _ => ' ')
    ensures Submit(f) == Posted
  {
  }
}

=== FILE: text.dfy ===
/** The JavaScript string operations the pages and the backend rely on: `trim`, `includes`,
    `startsWith`, `substring` and `toLowerCase`. */
module Text {

  /** The characters `String.prototype.trim` removes: ECMAScript WhiteSpace (tab, vertical tab,
      form feed, space, no-break space, byte order mark and the Unicode Zs category) and
      LineTerminator (line feed, carriage return, line and paragraph separator). */
  predicate IsSpace(c: char) {
    || c == '\t' || c == '\n' || c == '\U{B}' || c == '\U{C}' || c == '\r' || c == ' '
    || c == '\U{A0}' || c == '\U{1680}' || ('\U{2000}' <= c <= '\U{200A}')
    || c == '\U{2028}' || c == '\U{2029}' || c == '\U{202F}' || c == '\U{205F}' || c == '\U{3000}'
    || c == '\U{FEFF}'
  }

  /** `s` with its leading white space removed. */
  function TrimStart(s: string): (r: string)
    ensures |r| <= |s| && r == s[|s| - |r|..]
    ensures r == [] || !IsSpace(r[0])
    ensures forall k :: 0 <= k < |s| - |r| ==> IsSpace(s[k])
  {
    if |s| > 0 && IsSpace(s[0]) then TrimStart(s[1..]) else s
  }

  /** `s` with its trailing white space removed. */
  function TrimEnd(s: string): (r: string)
    ensures |r| <= |s| && r == s[..|r|]
    ensures r == [] || !IsSpace(r[|r| - 1])
    ensures forall k :: |r| <= k < |s| ==> IsSpace(s[k])
  {
    if |s| > 0 && IsSpace(s[|s| - 1]) then TrimEnd(s[..|s| - 1]) else s
  }

  /** `s.trim()`: the longest slice of `s` that neither starts nor ends with white space, cut
      out of `s` after its leading white space. */
  function Trim(s: string): (r: string)
    ensures r == [] || (!IsSpace(r[0]) && !IsSpace(r[|r| - 1]))
    ensures var i := |s| - |TrimStart(s)|;
      && i + |r| <= |s|
      && r == s[i..i + |r|]
      && (forall k :: 0 <= k < i ==> IsSpace(s[k]))
      && (forall k :: i + |r| <= k < |s| ==> IsSpace(s[k]))
  {
    TrimEnd(TrimStart(s))
  }

  /** `!s.trim()`: the string is empty once trimmed. */
  predicate IsBlank(s: string) {
    Trim(s) == ""
  }

  /** A string is blank exactly when every character in it is white space. */
  lemma BlankIffAllSpace(s: string)
    ensures IsBlank(s) <==> forall k :: 0 <= k < |s| ==> IsSpace(s[k])
  {
  }

  /** A string that is not blank is not empty. */
  lemma NotBlankNotEmpty(s: string)
    requires !IsBlank(s)
    ensures s != ""
  {
  }

  /** Trimming twice is trimming once. */
  lemma TrimIdempotent(s: string)
    ensures Trim(Trim(s)) == Trim(s)
  {
    var t := Trim(s);
    if t != [] {
      assert TrimStart(t) == t;
      assert TrimEnd(t) == t;
    }
  }

  /** `s.startsWith(p)`. */
  predicate StartsWith(s: string, p: string) {
    |p| <= |s| && s[..|p|] == p
  }

  /** `s.includes(t)`: `t` occurs in `s` as a contiguous piece, found by sliding along `s`. */
  predicate Includes(s: string, t: string)
    decreases |s|
  {
    StartsWith(s, t) || (|s| > 0 && Includes(s[1..], t))
  }

  /** `t` occurs in `s` starting at offset `i`. */
  predicate OccursAt(s: string, t: string, i: int) {
    0 <= i && i + |t| <= |s| && s[i..i + |t|] == t
  }

  /** Sliding search agrees with the definition of an occurrence at some offset. */
  lemma {:induction false} IncludesIff(s: string, t: string)
    ensures Includes(s, t) <==> exists i :: OccursAt(s, t, i)
    decreases |s|
  {
    if StartsWith(s, t) {
      assert OccursAt(s, t, 0);
    }
    if |s| > 0 {
      IncludesIff(s[1..], t);
      if Includes(s[1..], t) {
        var i :| OccursAt(s[1..], t, i);
        assert s[1..][i..i + |t|] == s[i + 1..i + 1 + |t|];
        assert OccursAt(s, t, i + 1);
      }
      if exists i :: OccursAt(s, t, i) {
        var i :| OccursAt(s, t, i);
        if i > 0 {
          assert s[1..][i - 1..i - 1 + |t|] == s[i..i + |t|];
          assert OccursAt(s[1..], t, i - 1);
        }
      }
    }
  }

  /** `c.toLowerCase()` on the ASCII letters; every other character is left as it is. */
  function LowerChar(c: char): char {
    if 'A' <= c <= 'Z' then (c as int + 32) as char else c
  }

  /** `s.toLowerCase()`, character by character. */
  function Lower(s: string): (r: string)
    ensures |r| == |s|
    ensures forall k :: 0 <= k < |s| ==> r[k] == LowerChar(s[k])
  {
    seq(|s|, k requires 0 <= k < |s| => LowerChar(s[k]))
  }
}

=== FILE: validation.dfy ===
/** The class-validator rules of the two creation DTOs and the rename DTO, as functions from the
    parsed JSON body to either the typed DTO or the names of the properties that failed. */
module Validation {
  import opened Wrappers
  import opened Json
  import Members
  import Reviews

  /** `@IsNotEmpty()`: anything but `''`, `null` and `undefined`. */
  predicate IsNotEmpty(v: Value) {
    v != Str("") && !v.Null? && !v.Undefined?
  }

  /** `@IsString()`. */
  predicate IsString(v: Value) {
    v.Str?
  }

  /** `@MinLength(n)`: a string at least `n` characters long. */
  predicate MinLength(v: Value, n: nat) {
    v.Str? && |v.s| >= n
  }

  /** `@IsInt()`: an integral number. */
  predicate IsInt(v: Value) {
    IsInteger(v)
  }

  /** `@IsArray()` together with `@IsString({ each: true })`. */
  predicate IsStringArray(v: Value) {
    v.Arr? && forall i :: 0 <= i < |v.items| ==> v.items[i].Str?
  }

  /** The registration body as received; any further property is ignored. */
  datatype MemberBody = MemberBody(email: Value, password: Value, name: Value)

  /** The properties of a registration body that break their rules, in declaration order.
      `isEmail` is the `@IsEmail()` format check. */
  function MemberErrors(b: MemberBody, isEmail: string -> bool): seq<string> {
    (if IsNotEmpty(b.email) && b.email.Str? && isEmail(b.email.s) then [] else ["email"])
    + (if IsNotEmpty(b.password) && IsString(b.password) && MinLength(b.password, 4) then [] else ["password"])
    + (if IsNotEmpty(b.name) && IsString(b.name) then [] else ["name"])
  }

  /** `CreateMemberDto` validation: a non-empty well-formed email, a password of at least four
      characters and a non-empty name, all strings. */
  function ValidateMember(b: MemberBody, isEmail: string -> bool)
    : (r: Result<Members.CreateMemberDto, seq<string>>)
    ensures r.Success? <==>
      && b.email.Str? && b.email.s != "" && isEmail(b.email.s)
      && b.password.Str? && |b.password.s| >= 4
      && b.name.Str? && b.name.s != ""
    ensures r.Success? ==>
      Str(r.value.email) == b.email && Str(r.value.password) == b.password && Str(r.value.name) == b.name
    ensures r.Failure? ==> r.error != [] && forall f :: f in r.error ==> f in ["email", "password", "name"]
    ensures r.Failure? ==>
      ("email" in r.error <==> !(b.email.Str? && b.email.s != "" && isEmail(b.email.s)))
    ensures r.Failure? ==> ("password" in r.error <==> !(b.password.Str? && |b.password.s| >= 4))
    ensures r.Failure? ==> ("name" in r.error <==> !(b.name.Str? && b.name.s != ""))
  {
    var errors := MemberErrors(b, isEmail);
    if errors == [] then Success(Members.CreateMemberDto(b.email.s, b.password.s, b.name.s))
    else Failure(errors)
  }

  /** The JSON body a client sends for a typed registration. */
  function EncodeMember(dto: Members.CreateMemberDto): MemberBody {
    MemberBody(Str(dto.email), Str(dto.password), Str(dto.name))
  }

  /** A typed registration survives the trip through JSON exactly when it meets the rules. */
  lemma MemberRoundTrip(dto: Members.CreateMemberDto, isEmail: string -> bool)
    ensures ValidateMember(EncodeMember(dto), isEmail) == Success(dto) <==>
      dto.email != "" && isEmail(dto.email) && |dto.password| >= 4 && dto.name != ""
  {
  }

  /** The rename body. */
  datatype UpdateBody = UpdateBody(name: Value)

  /** `UpdateMemberDto` validation: a non-empty string name. */
  function ValidateUpdate(b: UpdateBody): (r: Result<Members.UpdateMemberDto, seq<string>>)
    ensures r.Success? <==> b.name.Str? && b.name.s != ""
    ensures r.Success? ==> Str(r.value.name) == b.name
    ensures r.Failure? ==> r.error == ["name"]
  {
    if IsNotEmpty(b.name) && IsString(b.name) then Success(Members.UpdateMemberDto(b.name.s))
    else Failure(["name"])
  }

  /** The review creation body as received; an `owner` or `member` property would be ignored. */
  datatype ReviewBody = ReviewBody(company: Value, certificates: Value, age: Value,
                                   seekPeriod: Value, tip: Value)

  /** The properties of a review body that break their rules, in declaration order. */
  function ReviewErrors(b: ReviewBody): seq<string> {
    (if IsNotEmpty(b.company) && IsString(b.company) then [] else ["company"])
    + (if IsStringArray(b.certificates) then [] else ["certificates"])
    + (if IsInt(b.age) then [] else ["age"])
    + (if IsString(b.seekPeriod) then [] else ["seekPeriod"])
    + (if IsString(b.tip) then [] else ["tip"])
  }

  /** The strings of an array already known to hold only strings. */
  function Strings(items: seq<Value>): (r: seq<string>)
    ensures |r| == |items|
    ensures forall i :: 0 <= i < |items| && items[i].Str? ==> r[i] == items[i].s
  {
    seq(|items|, i requires 0 <= i < |items| => if items[i].Str? then items[i].s else "")
  }

  /** `CreateReviewDto` validation: a non-empty company, an array of strings (possibly empty), an
      integer age with no range, and string seek period and tip (possibly empty). */
  function ValidateReview(b: ReviewBody): (r: Result<Reviews.CreateReviewDto, seq<string>>)
    ensures r.Success? <==>
      && b.company.Str? && b.company.s != ""
      && b.certificates.Arr? && (forall i :: 0 <= i < |b.certificates.items| ==> b.certificates.items[i].Str?)
      && b.age.Num? && b.age.n.Floor as real == b.age.n
      && b.seekPeriod.Str? && b.tip.Str?
    ensures r.Success? ==>
      && Str(r.value.company) == b.company
      && |r.value.certificates| == |b.certificates.items|
      && (forall i :: 0 <= i < |b.certificates.items| ==> Str(r.value.certificates[i]) == b.certificates.items[i])
      && r.value.age as real == b.age.n
      && Str(r.value.seekPeriod) == b.seekPeriod && Str(r.value.tip) == b.tip
    ensures r.Failure? ==> r.error != []
  {
    var errors := ReviewErrors(b);
    if errors == [] then
      Success(Reviews.CreateReviewDto(b.company.s, Strings(b.certificates.items), b.age.n.Floor,
                                      b.seekPeriod.s, b.tip.s))
    else
      Failure(errors)
  }

  /** The JSON body a client sends for a typed review. */
  function EncodeReview(dto: Reviews.CreateReviewDto): ReviewBody {
    ReviewBody(Str(dto.company),
               Arr(seq(|dto.certificates|, i requires 0 <= i < |dto.certificates| => Str(dto.certificates[i]))),
               Num(dto.age as real), Str(dto.seekPeriod), Str(dto.tip))
  }

  /** Every typed review with a non-empty company passes validation unchanged, whatever its age,
      certificate list, seek period and tip; one with an empty company is refused. */
  lemma ReviewRoundTrip(dto: Reviews.CreateReviewDto)
    ensures ValidateReview(EncodeReview(dto)) == Success(dto) <==> dto.company != ""
  {
    var b := EncodeReview(dto);
    if dto.company != "" {
      assert (dto.age as real).Floor == dto.age;
      assert ReviewErrors(b) == [];
      assert Strings(b.certificates.items) == dto.certificates;
    }
  }
}

=== FILE: wrappers.dfy ===
/** Failure-carrying results shared by every part of the model. */
module Wrappers {

  /** A value that may be absent: JavaScript's `null` for a lookup that found nothing. */
  datatype Option<+T> = None | Some(value: T)

  /** The outcome of an operation that either returns a value or throws. */
  datatype Result<+T, +E> = Success(value: T) | Failure(error: E)

  /** The exceptions the backend services throw, with the HTTP status family each maps to. */
  datatype Failure =
    | Conflict(message: string)       // 409, ConflictException
    | NotFound(message: string)       // 404, NotFoundException
    | Unauthorized(message: string)   // 401, UnauthorizedException
    | Forbidden(message: string)      // 403, ForbiddenException
    | BadRequest(fields: seq<string>) // 400, a DTO that failed validation: the offending fields
    | QueryFailed                     // the database refused the query or the insert

  /** The range of the PostgreSQL `integer` columns that hold ids and ages. */
  const MinInteger := -2147483648
  const MaxInteger := 2147483647

  /** A value an `integer` column can hold; any other makes the query or the insert fail. */
  predicate FitsInteger(n: int) {
    MinInteger <= n <= MaxInteger
  }
}
